=== FILE: README.md ===
# FireAPRS in Dafny

This is a model of the FireAPRS processing cycle, with proofs about it. On
each run the cycle does the following:

- It downloads the VIIRS hotspot CSV.
- It keeps the hotspots that fall inside a latitude/longitude window and
  writes them to `viirs.json`.
- For each hotspot it may add the air temperature from the WAQI air-quality
  API (after reverse-geocoding the hotspot to a locality) and the link of
  the first matching RSS news item.
- It broadcasts one APRS position packet per hotspot through APRS-IS. When
  there are no hotspots it sends a single "no fires" packet.

Modules, one per source file:

| module | source file | form |
|---|---|---|
| `Coordinates` | `format_coordinates` in `fire_aprs_cli/aprs_sender.py` | pure functions over fixed-point coordinates |
| `Aprs` | `fire_aprs_cli/aprs_sender.py` | class `AprsSender` with fields `suffix`, `connected` and `wire` |
| `Downloader` | `fire_aprs_cli/downloader.py` | pure window filter, plus class `VIIRSDownloader` working on a `Disk` |
| `News` | `fire_aprs_cli/news_fetcher.py` | pure first-match search, plus the scanning loop as a method |
| `Aqi` | `fire_aprs_cli/aqi_fetcher.py` | pure functions over a JSON value type |
| `Config` | `fire_aprs_cli/config.py` | section and option checks, with validation as nested loops |
| `FireProcessing` | `process_fire_data` in `main.py` | the cycle as a method, proved against the function `CycleReport` |
| `Text`, `Wrappers` | helpers | decimal digits, padding, search, lower case; `Option` and `Result` |

How the model represents things:

- **Coordinates** are integers in hundredths of an arc-minute, so one
  degree is 6000.
  - Python's `int()` truncates toward zero; `IntDegrees` does the same.
  - The format specs `{d:02d}` and `{m:05.2f}` are written out as
    functions.
- **The APRS connection** is modelled by `wire`, a trace of the lines that
  `sendall` accepted and of each `disconnect` call.
- **Everything external is an input**, gathered in
  `FireProcessing.CycleEnv`: the HTTP download, the connection, the
  geocoder, the AQI answers, the RSS feed, and the success or failure of
  each `sendall`.
- **The loop of `process_fire_data`** is stated over a `FireProcessing.Loop`
  value holding three functions: the message body for the k-th record (or
  the exception raised while composing it), whether the k-th `sendall`
  succeeds, and the packet line. `LoopOf` builds these from `BodyFor`,
  `CycleEnv.delivered` and `Packet` with the APRS position fields.
- **An exception the source catches** becomes a `None` or a failure
  outcome.
- **An exception the source does not catch** ends the cycle. Inside the
  loop of `process_fire_data` the only such exception is the one of the
  AQI lookup (calling `.get` on a JSON value that is not an object), and it
  becomes `Aqi.Py.Raises`. Before the loop, the exceptions that escape
  `run` (a failed unlink, a failed request or stream, `os.makedirs('')`, a
  CSV parse or JSON write error) and the connection failure of the sender
  become the `DownloadFailed` and `ConnectFailed` outcomes of
  `FireProcessing.CycleReport`.

Behaviour of the code that is easy to miss:

- **The suffix restarts every cycle.** A new sender is built for each
  cycle, so each cycle's first packet has suffix 11.
- **A crash leaves the connection open.** An uncaught exception during the
  AQI lookup ends `process_fire_data` with no `disconnect` call. See
  `FireProcessing.CrashLeavesConnectionOpen`.
- **A failed download sends nothing.** The download runs before the sender
  exists, so there is nothing to disconnect.
- **A failed download can still delete the old CSV.** The old file is
  removed before the download starts. Once it is removed, a failed request
  or a bare file name leaves nothing at the path, and a stream cut short
  leaves the partial bytes. A failed unlink keeps the old CSV. See
  `Downloader.NoStaleDownload` and `Downloader.FailureStopsRun`.
- **A bare file name never downloads.** `download_file` makes the
  directory of the configured path before opening it. For a path with no
  `/` that directory is the empty string, and `os.makedirs('')` raises
  FileNotFoundError. That is not a request error, so it propagates out of
  `run` and out of `process_fire_data` before the sender is built. See
  `Downloader.BareFileNameAborts`.

## Model

| member | source | states |
|---|---|---|
| `Coordinates.FormatMinutes` | fire_aprs_cli/aprs_sender.py:33-34 | `{m:05.2f}`: `Coordinates.MinutesShape` proves non-negative minutes below 60 give the five characters `MM.mm`; `Coordinates.NegativeMinutesShape` that negative minutes start with `-` |
| `Coordinates.FormatAxis` | fire_aprs_cli/aprs_sender.py:27-34 | one field of `format_coordinates` as written; its shape is stated by `Coordinates.AxisParts`, `Coordinates.HemisphereLetter` and `Coordinates.NearZeroNegative` |
| `Coordinates.FormatLatitude` | fire_aprs_cli/aprs_sender.py:27-28 | `formatted_lat`: `FormatAxis` with two degree digits and N/S; 8 characters for 0 <= lat < 90 (`Coordinates.LatitudeWidth`) |
| `Coordinates.FormatLongitude` | fire_aprs_cli/aprs_sender.py:29-30 | `formatted_lon`: `FormatAxis` with three degree digits and E/W; 9 characters for 0 <= lon < 180 (`Coordinates.LongitudeWidth`) |
| `Coordinates.FormatCoordinates` | fire_aprs_cli/aprs_sender.py:25-36 | the pair `(formatted_lat, formatted_lon)`; `Coordinates.CoordinatesAgreeIff` says when it equals the corrected pair |
| `Coordinates.FormatAxisAprs` | fire_aprs_cli/aprs_sender.py:33-34 | the corrected field: degrees and minutes of the magnitude, sign in the letter; `Coordinates.AprsRoundTrip` proves `ParseAxis` recovers the angle |
| `Coordinates.ParseAxis` | fire_aprs_cli/aprs_sender.py:33-34 | reads a `D..DMM.mmH` field back, rejecting any other shape and minutes of 60 or more; its partner is `Coordinates.AprsRoundTrip`, and `Aprs.NoFirePositionMalformed` shows it rejecting the written no-fire fields |
| `Coordinates.IntDegrees` | fire_aprs_cli/aprs_sender.py:27 | whole degrees truncated toward zero: the magnitude is the magnitude divided by a degree, and the sign follows the input |
| `Coordinates.AxisParts` | fire_aprs_cli/aprs_sender.py:27-34 | the field is the zero-padded degrees of the magnitude, then the minutes with the sign of the angle, then a letter chosen by the truncated degrees |
| `Coordinates.HemisphereLetter` | fire_aprs_cli/aprs_sender.py:33-34 | the last character is the N/E letter exactly when `int(x) >= 0`, which holds exactly when x > -1 degree |
| `Coordinates.NearZeroNegative` | fire_aprs_cli/aprs_sender.py:27-34 | for -1 < x < 0 degrees the field is zero degrees, then a minus sign, and it ends in N or E |
| `Coordinates.LatitudeWidth` | fire_aprs_cli/aprs_sender.py:33 | for 0 <= lat < 90 the latitude field has exactly 8 characters |
| `Coordinates.LongitudeWidth` | fire_aprs_cli/aprs_sender.py:34 | for 0 <= lon < 180 the longitude field has exactly 9 characters |
| `Coordinates.TwoDigits` | fire_aprs_cli/aprs_sender.py:33 | the hundredths of a minute take two digits and read back as the same number |
| `Coordinates.MinutesShape` | fire_aprs_cli/aprs_sender.py:33-34 | non-negative minutes print as `MM.mm`, 5 characters |
| `Coordinates.DegreesShape` | fire_aprs_cli/aprs_sender.py:33-34 | degrees below 10^d pad to exactly d digits and read back as the same value |
| `Coordinates.AsWrittenAgreesIff` | fire_aprs_cli/aprs_sender.py:27-34 | the formatter as written gives the APRS `DDMM.mm` field if and only if the angle is non-negative or a whole number of degrees |
| `Coordinates.CoordinatesAgreeIff` | fire_aprs_cli/aprs_sender.py:25-36 | `format_coordinates` as written returns the corrected pair if and only if each angle is non-negative or a whole number of degrees |
| `Coordinates.SouthernLatitudeMalformed` | fire_aprs_cli/aprs_sender.py:27-33 | -34.5 degrees gives `34-30.00S`, which does not parse as an APRS latitude; the corrected form `3430.00S` parses back to the input |
| `Coordinates.AprsRoundTrip` | fire_aprs_cli/aprs_sender.py:27-34 | the corrected formatter's field parses back to exactly the input angle, for any degree width d |
| `Coordinates.LatitudeAprsRoundTrip` | fire_aprs_cli/aprs_sender.py:33 | corrected latitude fields parse back to the input, for all \|lat\| <= 90 |
| `Coordinates.LongitudeAprsRoundTrip` | fire_aprs_cli/aprs_sender.py:34 | corrected longitude fields parse back to the input, for all \|lon\| <= 180 |
| `Aprs.Packet` | fire_aprs_cli/aprs_sender.py:42 | the f-string `callsign-suffix>APDR15,TCPIP*,qAC,T2STRAS:=lat/lon:message`; `Aprs.PacketRoundTrip` and `Aprs.SentPacketDecodes` prove it decodes back to its five inputs |
| `Aprs.NoFirePacket` | fire_aprs_cli/aprs_sender.py:52-57 | the no-fire line with body `T No fires today` and the corrected position `3400.00N`/`03100.00E` (the source writes `34.0000N`/`31.0000E`, see Findings); `Aprs.NoFirePacketFields` states its decoded fields |
| `Aprs.StationRoundTrip` | fire_aprs_cli/aprs_sender.py:42 | `callsign-suffix` splits back into the callsign and the suffix |
| `Aprs.PositionRoundTrip` | fire_aprs_cli/aprs_sender.py:42 | `lat/lon:body` splits back into its three parts when lat has no `/` and lon has no `:` |
| `Aprs.PacketRoundTrip` | fire_aprs_cli/aprs_sender.py:42 | a packet line parses back into callsign, suffix, latitude, longitude and body |
| `Aprs.PositionHasNoSeparators` | fire_aprs_cli/aprs_sender.py:33-34 | formatted position fields contain only digits, `.`, `-` and the hemisphere letters, so never `/` or `:` |
| `Aprs.SentPacketDecodes` | fire_aprs_cli/aprs_sender.py:41-42 | every line `send_message` builds decodes to its callsign, its suffix, the formatted fields and its message |
| `Aprs.SentPositionDecodes` | fire_aprs_cli/aprs_sender.py:25-42 | decoding a sent packet recovers the coordinates it was sent for, for \|lat\| <= 90 and \|lon\| <= 180 |
| `Aprs.NoFirePacketFields` | fire_aprs_cli/aprs_sender.py:53-57 | the no-fire line decodes to body `T No fires today` and to a position that reads back as 34 N, 31 E; `3400.00N`/`03100.00E` are the formatter's fields for 34 N, 31 E |
| `Aprs.NoFirePositionMalformed` | fire_aprs_cli/aprs_sender.py:53-54 | the fixed no-fire position as written does not parse as APRS `DDMM.mm`/`DDDMM.mm` |
| `Aprs.AprsSender.constructor` | fire_aprs_cli/aprs_sender.py:9-15 | a new sender keeps its settings, is connected, has suffix 11 and has sent nothing |
| `Aprs.AprsSender.Open` | fire_aprs_cli/aprs_sender.py:17-23 | a sender exists exactly when the connection is made; a fresh one has suffix 11 and an empty trace |
| `Aprs.AprsSender.SendMessage` | fire_aprs_cli/aprs_sender.py:39-48 | when delivered, appends exactly the line built with the pre-increment suffix (position fields corrected, see Findings) and raises the suffix by 1; otherwise changes nothing and does not fail |
| `Aprs.AprsSender.SendNoFireMessage` | fire_aprs_cli/aprs_sender.py:50-63 | the same, for the fixed no-fire line (position corrected, see Findings) |
| `Aprs.AprsSender.Disconnect` | fire_aprs_cli/aprs_sender.py:65-72 | always returns, records one disconnect call, keeps the suffix, and leaves the connection closed when the call succeeds |
| `Downloader.InWindow` | fire_aprs_cli/downloader.py:54-59 | the four comparisons of the mask: latitude between `latitude2` and `latitude1`, longitude between `longitude1` and `longitude2`, bounds included; `Downloader.FilterRows` keeps exactly the rows that meet it |
| `Downloader.FilterRows` | fire_aprs_cli/downloader.py:54-59 | each kept row is inside the four bounds, and each row inside the bounds is kept (both directions) |
| `Downloader.FilterIsSubsequence` | fire_aprs_cli/downloader.py:54-59 | the output is a subsequence of the input: order kept, nothing added |
| `Downloader.FilterCounts` | fire_aprs_cli/downloader.py:54-59 | each row appears as often in the output as in the input if it is in the window, and not at all otherwise |
| `Downloader.FilterIdempotent` | fire_aprs_cli/downloader.py:54-59 | filtering the output again returns it unchanged |
| `Downloader.FilterConcat` | fire_aprs_cli/downloader.py:54-59 | the filter works row by row: it distributes over concatenation |
| `Downloader.EmptyWindowKeepsNothing` | fire_aprs_cli/downloader.py:54-59 | if latitude2 > latitude1 or longitude1 > longitude2, nothing is kept |
| `Downloader.VIIRSDownloader.RemoveExistingFile` | fire_aprs_cli/downloader.py:19-26 | removes the file if it exists; a failed unlink propagates and leaves the disk unchanged |
| `Downloader.VIIRSDownloader.DownloadFile` | fire_aprs_cli/downloader.py:28-39 | an HTTP failure, or a path without a directory part (`makedirs('')` raises), fails and writes nothing; otherwise the path holds the chunks in order, also when an error cuts the stream short, which fails |
| `Downloader.VIIRSDownloader.ProcessCsv` | fire_aprs_cli/downloader.py:41-78 | on success, `viirs.json` holds exactly the filtered rows of the parsed file; any failure leaves the disk unchanged |
| `Downloader.VIIRSDownloader.Run` | fire_aprs_cli/downloader.py:80-85 | the outcome and the new disk are those of `RunEffect`: remove, then download, then process, stopping at the first failure |
| `Downloader.FailureStopsRun` | fire_aprs_cli/downloader.py:80-85 | a failed step stops the run: removal fails exactly when the file exists and unlink fails, and then the disk is unchanged; no failure touches `viirs.json` |
| `Downloader.MakedirsOk` | fire_aprs_cli/downloader.py:32 | `os.makedirs(os.path.dirname(path), exist_ok=True)` succeeds exactly when the path has a `/`; `Downloader.BareFileNameAborts` states the run when it does not |
| `Downloader.RunEffect` | fire_aprs_cli/downloader.py:80-85 | `run` as a function of the disk and the inputs; a finished run had a complete stream to a path with a directory part and leaves a snapshot at `viirs.json`; `Downloader.VIIRSDownloader.Run` is proved equal to it |
| `Downloader.NoStaleDownload` | fire_aprs_cli/downloader.py:19-39 | the old file is gone once removal succeeds: after a failed request, or when the path has no directory part, nothing is at the path; otherwise exactly the streamed bytes are |
| `Downloader.BareFileNameAborts` | fire_aprs_cli/downloader.py:28-39 | for a path with no `/`, once removal succeeds the run fails at the download step whatever the server answers, and the path is left empty |
| `Downloader.FinishedRunSnapshot` | fire_aprs_cli/downloader.py:66-67 | after a finished run, `viirs.json`, whatever the configured CSV path, holds exactly `FilterRows` of the parsed rows, so they are all in the window and form a subsequence of the parsed rows |
| `News.NewNewsFetcher` | fire_aprs_cli/news_fetcher.py:7-9 | the stored keyword is the lower-cased keyword, character by character |
| `News.FirstMatch` | fire_aprs_cli/news_fetcher.py:27-29 | the index found matches and no earlier entry does; when nothing is found, no entry matches |
| `News.FindNewsLink` | fire_aprs_cli/news_fetcher.py:21-35 | the scanning loop returns `NewsLink`: the first match's link, or the sentinel for a missing link, no match, a fetch error or no entries |
| `News.NewsLink` | fire_aprs_cli/news_fetcher.py:21-35 | `find_news_link` as a function of the keyword and the fetched feed; `News.FindNewsLink` is proved equal to it, and `News.NewsLinkIsFirstMatch`, `News.NoMatchNoLink` and `News.LaterEntriesIgnored` state what it returns |
| `News.NewsLinkIsFirstMatch` | fire_aprs_cli/news_fetcher.py:27-32 | the result is the sentinel or the link of a matching entry with no match before it; conversely the first matching entry's link, when present, is the result |
| `News.LaterEntriesIgnored` | fire_aprs_cli/news_fetcher.py:30-32 | after a match, later entries change nothing, even when the matching entry has no link |
| `News.NoMatchNoLink` | fire_aprs_cli/news_fetcher.py:34-35 | with no matching entry the result is `No link found` |
| `News.EmptyKeywordFirstEntry` | fire_aprs_cli/news_fetcher.py:28-29 | the empty keyword matches the first entry, including an untitled one |
| `News.CaseInsensitive` | fire_aprs_cli/news_fetcher.py:9 | keywords and titles that differ only in case give the same link |
| `News.SameFirstMatch` | fire_aprs_cli/news_fetcher.py:28-29 | feeds whose titles are equal up to case have the same first match |
| `Aqi.DictGet` | fire_aprs_cli/aqi_fetcher.py:38-43 | `.get` raises exactly on non-objects; otherwise it returns the value or the default |
| `Aqi.GetLocationName` | fire_aprs_cli/aqi_fetcher.py:15-30 | a resolved city is never empty; with no location or a geocoder error the result is `None` |
| `Aqi.FirstTruthy` | fire_aprs_cli/aqi_fetcher.py:22 | the value of the first truthy key, in order; `None` when no key is truthy |
| `Aqi.LocalityFallback` | fire_aprs_cli/aqi_fetcher.py:21-25 | the or-chain equals the first truthy value among city, town, village and hamlet; a location without an address gives `None` |
| `Aqi.AqiUrl` | fire_aprs_cli/aqi_fetcher.py:33 | the URL starts with the feed endpoint and ends with `/?token=` and the token |
| `Aqi.AqiUrlInjective` | fire_aprs_cli/aqi_fetcher.py:33 | under the same token, different cities give different URLs |
| `Aqi.FetchAqi` | fire_aprs_cli/aqi_fetcher.py:32-51 | it raises if and only if the JSON body is not well-shaped; a failed request or a body that does not decode gives `None`; a returned temperature is never null |
| `Aqi.StatusNotOkIsNone` | fire_aprs_cli/aqi_fetcher.py:38-40 | any status other than `ok` gives `None` |
| `Aqi.TemperatureFound` | fire_aprs_cli/aqi_fetcher.py:41-45 | with status ok, a non-null `data.iaqi.t.v` is returned unchanged |
| `Aqi.TemperatureMissing` | fire_aprs_cli/aqi_fetcher.py:41-45 | with status ok, a missing `data`, `iaqi`, `t` or `v` gives `None` |
| `Aqi.GetAqiTemperature` | fire_aprs_cli/aqi_fetcher.py:53-61 | with no city, `None` and no request; otherwise one request to that city's URL and its result unchanged |
| `Aqi.NoCityNoRequest` | fire_aprs_cli/aqi_fetcher.py:18-30 | geocoder errors, misses and addresses with no truthy locality never reach the API |
| `Config.Get` | fire_aprs_cli/config.py:38 | a section's own value wins over the DEFAULT value |
| `Config.FirstMissingOption` | fire_aprs_cli/config.py:32-34 | `None` exactly when every listed option is present; otherwise the first listed option that is absent, every earlier one being present |
| `Config.FirstMissing` | fire_aprs_cli/config.py:29-34 | a reported section is absent; a reported option is absent from a section that exists |
| `Config.FirstMissingNoneIff` | fire_aprs_cli/config.py:21-34 | validation passes if and only if every required section exists with all its options |
| `Config.FirstMissingIsFirst` | fire_aprs_cli/config.py:29-34 | what is reported is the first gap in declaration order: every earlier section exists with all its options, and the report is either the absent section itself or the first absent option of that section |
| `Config.FirstMissingIsRequired` | fire_aprs_cli/config.py:21-34 | a reported item is one of the required sections, or one of its required options |
| `Config.ExtraEntriesKeepValid` | fire_aprs_cli/config.py:29-34 | extra sections, options or defaults never make a valid file invalid |
| `Config.ValidateConfig` | fire_aprs_cli/config.py:20-34 | validation reports the first missing item of the required table in declaration order, or nothing |
| `Config.FindMissing` | fire_aprs_cli/config.py:29-34 | the outer loop over sections reports the first absent section, or the first absent option of a present one, or nothing |
| `Config.FindMissingOption` | fire_aprs_cli/config.py:32-34 | the inner loop reports the first absent option of a section, or nothing |
| `Config.LoadConfig` | fire_aprs_cli/config.py:12-18 | a path that is not a file fails with file-not-found; otherwise the parsed file is returned |
| `Config.NewConfig` | fire_aprs_cli/config.py:8-10 | construction succeeds exactly when the file exists and is valid, and otherwise reports the first error; a constructed configuration is valid |
| `Config.SectionSettings` | fire_aprs_cli/config.py:36-70 | a getter returns exactly the listed keys, each read with `get` |
| `Config.ViirsSettings` | fire_aprs_cli/config.py:36-44 | on a valid file it returns exactly the six `viirs` keys |
| `Config.AprsSettings` | fire_aprs_cli/config.py:46-53 | on a valid file it returns exactly the five `aprssend` keys |
| `Config.AqiSettings` | fire_aprs_cli/config.py:55-58 | on a valid file it returns exactly `authtoken` |
| `Config.NewsfeedSettings` | fire_aprs_cli/config.py:60-64 | on a valid file it returns exactly `link` and `keyword` |
| `Config.LoggingSettings` | fire_aprs_cli/config.py:66-70 | on a valid file it returns exactly `level` and `log_file` |
| `FireProcessing.LoadRecords` | main.py:52-61 | a loaded snapshot has one record per stored row, each with both coordinates |
| `FireProcessing.AqiPart` | main.py:80-86 | absent when AQI is disabled; `N/A` when the lookup gives `None`; the shown value otherwise; raises exactly when the lookup raises |
| `FireProcessing.NewsPart` | main.py:89-94 | present exactly when news is enabled, the `No link found` sentinel included |
| `FireProcessing.ComposeBody` | main.py:97-107 | the AQI part, then the news part, joined with `", "`; exactly `Fire detected` when neither is present |
| `FireProcessing.FallbackOnlyWhenEmpty` | main.py:104-105 | the body is `Fire detected` if and only if both parts are absent |
| `FireProcessing.BodyFor` | main.py:79-107 | the body composed for one record from the AQI and news parts; it raises only when AQI is enabled |
| `FireProcessing.Advance` | main.py:71-111 | one pass of the loop: a record missing a coordinate changes nothing, a raising lookup ends the loop, and a send moves the suffix only when `sendall` succeeds; `FireProcessing.AdvanceDelivers`, `FireProcessing.SkippedRecordInvisible` and `FireProcessing.CrashIsFinal` state these cases |
| `FireProcessing.Cycle` | main.py:71-111 | the loop only sends, never disconnects; the suffix is 11 plus the number of lines sent; at most one line per record |
| `FireProcessing.CycleSnoc` | main.py:71-111 | the loop over one more record is one more step of the loop body |
| `FireProcessing.NoRaiseNoCrash` | main.py:71-111 | a loop whose message bodies never raise never ends early |
| `FireProcessing.CrashNeedsAqi` | main.py:79-86 | only the AQI lookup raises, so a loop that crashes had AQI enabled |
| `FireProcessing.SkippedRecordInvisible` | main.py:75-77 | a record missing a coordinate leaves no trace: the cycle equals the cycle without it |
| `FireProcessing.CrashIsFinal` | main.py:80-81 | after an uncaught exception, later records are not processed |
| `FireProcessing.CycleDelivers` | main.py:71-111 | when every record is located, raises nothing and is delivered, the loop ends uncrashed, having handled every record, with one line per record and the suffix moved once per line |
| `FireProcessing.AllDelivered` | main.py:71-111 | in that case the k-th line on the wire is the packet of the k-th record, with suffix 11 + k |
| `FireProcessing.PartialDelivery` | main.py:71-111 | whatever sends fail, the wire holds one line per successful `sendall`, and the i-th line carries suffix 11 + i: a failed send leaves no gap |
| `FireProcessing.HandleRecord` | main.py:72-111 | one loop iteration has exactly the effect of one `Advance` step on the sender, and leaves the connection as it was |
| `FireProcessing.SendRecords` | main.py:71-111 | the loop leaves on the sender exactly the trace and suffix of `Cycle`, keeps the connection as it was, and reports a crash exactly when `Cycle` does |
| `FireProcessing.ProcessFireData` | main.py:27-115 | the disk and the report (outcome and connection trace) are exactly those of `CycleReport` |
| `FireProcessing.CycleReport` | main.py:27-115 | `process_fire_data` as a function of the settings, the disk and the environment; `FireProcessing.ProcessFireData` is proved equal to it, and `FireProcessing.FailedBeforeConnect`, `FireProcessing.DisconnectOnceAtEnd` and `FireProcessing.CrashLeavesConnectionOpen` state its outcomes |
| `FireProcessing.LoadedReport` | main.py:63-115 | the cycle once `viirs.json` is loaded: the no-fire packet for no records, else the loop followed by `disconnect` unless it crashed; `FireProcessing.LoadedDisconnectOnce` and `FireProcessing.LoadedAllBroadcast` state what it sends |
| `FireProcessing.FailedBeforeConnect` | main.py:31-50 | a failed download or connection sends nothing |
| `FireProcessing.LoadedDisconnectOnce` | main.py:63-114 | once the records are loaded, a cycle that does not crash calls `disconnect` exactly once, as its last action |
| `FireProcessing.DisconnectOnceAtEnd` | main.py:58-114 | after a load failure, an empty dataset or normal completion, `disconnect` is called exactly once, as the last action |
| `FireProcessing.CrashLeavesConnectionOpen` | main.py:80-81 | a crash happens only with AQI enabled and leaves no disconnect call |
| `FireProcessing.NothingInWindow` | main.py:63-68 | with an empty snapshot, the outcome is no-fires, and a delivered cycle sends exactly the no-fire line, then disconnects |
| `FireProcessing.LoadedAllBroadcast` | main.py:63-114 | with readable AQI answers and all deliveries succeeding: no records sends the no-fire packet only; otherwise each record is sent once, in order, from suffix 11, then disconnect |
| `FireProcessing.EveryHotspotBroadcast` | main.py:27-68 | after a finished download, with the connection up and `viirs.json` readable, the snapshot exists and the cycle is the loaded part run on one record per stored row |

## Left out

- The scheduler (`fire_aprs_cli/scheduler.py`), `main()`, argument parsing and `setup_logging`. They are concurrency, process control and logging setup, with no rule to state.
- Logging and `print` calls, and the `time.sleep(5)` rate-limit delay, which is timing only.
- Network, files and sockets are inputs, not implementations:
  - HTTP for the CSV, the geocoder and the AQI API;
  - feed fetching and parsing;
  - the APRS-IS socket and the library's connect and disconnect;
  - CSV parsing (`pandas.read_csv`, an input function whose `None` stands for a parse error);
  - whether the JSON write succeeds.
- `Downloader.VIIRSDownloader.DownloadFile`: of the ways `os.makedirs` and `open` can fail, only the empty directory part of a bare file name is modelled. Permission errors and a file standing where a directory should be are not.
- Float arithmetic. Coordinates are fixed-point hundredths of an arc-minute, so the model shows no rounding or representation error of `(x - int(x)) * 60` and `05.2f`. The window test uses exact reals, with no NaN.
- The conversion of a stored float in `viirs.json` to a fixed-point coordinate. It is the input `toCoord`.
- `str()` of an AQI temperature value. It is the input `show`.
- `Config.ViirsSettings`: the `getfloat` conversions of `get_viirs_config` are not modelled. The getter returns the raw strings.
- `Config.AprsSettings`: the `getint` conversion of `port` is not modelled. The getter returns the raw strings.
- Interpolation in `ConfigParser.get` is not modelled.
- INI syntax and its parse errors are not modelled. A loaded file is already a map of sections.
- Option-name case folding: option names are assumed already in the lower case the parser stores, and all required names are lower case.
- `Text.Lower` folds ASCII letters only. Python's `.lower()` covers all of Unicode.
- The geocoder and the AQI API are deterministic functions of their query, and the feed is given per handled record. Repeated queries that answer differently over time are not modelled.
- The legacy scripts (`aprssend.py`, `viirs.py`, `news.py`, `aqi.py`, `tester.py`) are superseded by the package. `firejson.py` republishes the snapshot over HTTP. Neither is part of this model.
- `Aprs.AprsSender`: `password` and `port` are used only to connect; `comment` and `symbol` are stored and never used. The login exchange is not modelled.
- `Aprs.AprsSender.SendMessage`: sends the corrected position fields (`Coordinates.FormatLatitudeAprs`/`FormatLongitudeAprs`), not the source's. The two agree exactly when the angle is non-negative or a whole number of degrees (`Coordinates.AsWrittenAgreesIff`). The as-written fields are modelled by `Coordinates.FormatLatitude`/`FormatLongitude`.
- `Aprs.AprsSender.SendNoFireMessage`: sends `3400.00N`/`03100.00E` where the source sends `34.0000N`/`31.0000E` (see Findings).

## Findings

Both findings below are modelled twice: as written, with the lemmas that
expose the problem, and corrected. The sender and the cycle use the
corrected fields, so there the model departs from the code (see
`Aprs.AprsSender.SendMessage` and `Aprs.AprsSender.SendNoFireMessage` under
"Left out").

| source | as written | input that shows it | evidently intended | confidence | as-written member | corrected member |
|---|---|---|---|---|---|---|
| fire_aprs_cli/aprs_sender.py:27-34 | minutes are `(x - int(x)) * 60`, which keeps the sign of x; the letter follows `int(x)` | latitude -34.5 gives `34-30.00S`; -0.5 gives `00-30.00N` (northern letter for a southern point) | `DDMM.mm` of the magnitude, with S/W for every negative angle: `3430.00S` | high, not executed | `Coordinates.SouthernLatitudeMalformed` (with `Coordinates.NearZeroNegative`, `Coordinates.AsWrittenAgreesIff`) | `Coordinates.AprsRoundTrip` (with `Coordinates.LatitudeAprsRoundTrip`, `Coordinates.LongitudeAprsRoundTrip`, `Aprs.SentPositionDecodes`) |
| fire_aprs_cli/aprs_sender.py:53-54 | the no-fire position is `34.0000N`/`31.0000E`, decimal degrees | any no-fire packet: neither field parses as APRS `DDMM.mm`/`DDDMM.mm` | `3400.00N`/`03100.00E` | high, not executed | `Aprs.NoFirePositionMalformed` | `Aprs.NoFirePacketFields` |

=== FILE: aprs_sender.dfy ===
/** `APRSSender`: the packet line it writes to the APRS-IS gateway and the
    state it keeps (the station suffix and the connection).

    The gateway socket is modelled by `wire`, the trace of what the sender
    did to it: each line that `sendall` accepted, and each call of
    `disconnect`. Whether `sendall` succeeds, whether the initial connection
    can be made and whether the library's `disconnect` works are inputs. */
module Aprs {
  import opened Text
  import opened Wrappers
  import opened Coordinates

  /** Destination, path and data type indicator between the station and the position. */
  const Path := ">APDR15,TCPIP*,qAC,T2STRAS:="

  /** The suffix of the first packet of every sender. */
  const FirstSuffix: nat := 11

  /** The fixed position of the no-fire packet as the source writes it,
      in decimal degrees. */
  const WrittenNoFireLatitude := "34.0000N"
  const WrittenNoFireLongitude := "31.0000E"

  /** The same position, 34 degrees north and 31 degrees east, in the APRS
      `DDMM.mm` form that the no-fire packet carries in this model. */
  const NoFireLatitude := "3400.00N"
  const NoFireLongitude := "03100.00E"

  /** The body of the no-fire packet; `T` is the symbol. */
  const NoFireBody := "T No fires today"

  /** The `aprssend` settings the sender is built from. */
  datatype AprsConfig = AprsConfig(callsign: string, password: string, comment: string,
                                   symbol: string, port: int)

  /** The packet line: the station (callsign, a dash, the decimal suffix),
      the fixed path, the position as latitude and longitude separated by a
      slash, then a colon and the body. */
  function Packet(callsign: string, suffix: nat, lat: string, lon: string, body: string): string {
    callsign + "-" + NatToString(suffix) + Path + lat + "/" + lon + ":" + body
  }

  /** The packet line of `send_no_fire_message`, with the corrected
      position `3400.00N`/`03100.00E` where the source writes the decimal
      degrees `34.0000N`/`31.0000E`. */
  function NoFirePacket(callsign: string, suffix: nat): string {
    Packet(callsign, suffix, NoFireLatitude, NoFireLongitude, NoFireBody)
  }

  datatype PacketFields = PacketFields(callsign: string, suffix: nat, lat: string, lon: string, body: string)

  /** Reading a packet line back: the station runs to the first `>`, then
      comes the fixed path, then the position and the body. */
  function ParsePacket(line: string): Option<PacketFields> {
    var i := IndexOf(line, '>');
    if !StartsWith(line[i..], Path) then None
    else
      match (ParseStation(line[..i]), ParsePosition(line[i + |Path|..]))
      case (Some((callsign, suffix)), Some((lat, lon, body))) =>
        Some(PacketFields(callsign, suffix, lat, lon, body))
      case _ => None
  }

  /** The station splits at its last `-` into callsign and decimal suffix. */
  function ParseStation(station: string): Option<(string, nat)> {
    var dash := LastIndexOf(station, '-');
    if dash == |station| then None
    else
      var digits := station[dash + 1..];
      if digits == [] || !AllDigits(digits) then None
      else Some((station[..dash], ParseDigits(digits)))
  }

  /** The latitude runs to the first `/`, the longitude to the next `:`, and
      the rest is the body. */
  function ParsePosition(position: string): Option<(string, string, string)> {
    var j := IndexOf(position, '/');
    if j == |position| then None
    else
      var tail := position[j + 1..];
      var k := IndexOf(tail, ':');
      if k == |tail| then None
      else Some((position[..j], tail[..k], tail[k + 1..]))
  }

  lemma DigitsHaveNoPunctuation(s: string)
    requires AllDigits(s)
    ensures '>' !in s && '-' !in s
  {
  }

  lemma {:induction false} StationRoundTrip(callsign: string, suffix: nat)
    ensures ParseStation(callsign + "-" + NatToString(suffix)) == Some((callsign, suffix))
  {
    var n := NatToString(suffix);
    var station := callsign + "-" + n;
    DigitsHaveNoPunctuation(n);
    assert station == callsign + ['-'] + n;
    LastIndexOfSplit(callsign, '-', n);
    assert station[|callsign| + 1..] == n;
    assert station[..|callsign|] == callsign;
    ParseNatToString(suffix);
  }

  lemma {:induction false} PositionRoundTrip(lat: string, lon: string, body: string)
    requires '/' !in lat && ':' !in lon
    ensures ParsePosition(lat + "/" + lon + ":" + body) == Some((lat, lon, body))
  {
    var position := lat + "/" + lon + ":" + body;
    var tail := lon + ":" + body;
    assert position == lat + ['/'] + tail;
    IndexOfSplit(lat, '/', tail);
    assert position[|lat| + 1..] == tail;
    assert position[..|lat|] == lat;
    assert tail == lon + [':'] + body;
    IndexOfSplit(lon, ':', body);
    assert tail[..|lon|] == lon;
    assert tail[|lon| + 1..] == body;
  }

  lemma {:induction false} SplitAtPath(station: string, position: string)
    requires '>' !in station
    ensures var line := station + Path + position; var i := IndexOf(line, '>');
      i == |station| && line[..i] == station && StartsWith(line[i..], Path)
      && line[i + |Path|..] == position
  {
    var line := station + Path + position;
    assert line == station + ['>'] + (Path[1..] + position);
    IndexOfSplit(station, '>', Path[1..] + position);
    assert line[..|station|] == station;
    assert line[|station|..] == Path + position;
    assert line[|station| + |Path|..] == position;
  }

  /** A packet line reads back as the fields it was built from, provided the
      callsign has no `>`, the latitude no `/` and the longitude no `:`. */
  lemma {:induction false} PacketRoundTrip(callsign: string, suffix: nat, lat: string, lon: string, body: string)
    requires '>' !in callsign && '/' !in lat && ':' !in lon
    ensures ParsePacket(Packet(callsign, suffix, lat, lon, body))
        == Some(PacketFields(callsign, suffix, lat, lon, body))
  {
    var station := callsign + "-" + NatToString(suffix);
    var position := lat + "/" + lon + ":" + body;
    DigitsHaveNoPunctuation(NatToString(suffix));
    assert '>' !in station;
    assert Packet(callsign, suffix, lat, lon, body) == station + Path + position;
    SplitAtPath(station, position);
    StationRoundTrip(callsign, suffix);
    PositionRoundTrip(lat, lon, body);
  }

  /** The characters a position field of the source may contain. */
  predicate PositionChar(c: char) {
    IsDigit(c) || c == '.' || c == '-' || c == 'N' || c == 'S' || c == 'E' || c == 'W'
  }

  lemma PaddedDigitsChars(n: nat, w: nat)
    ensures forall c :: c in PadLeft(NatToString(n), w, '0') ==> IsDigit(c)
  {
    ParsePadded(n, w);
  }

  lemma MinutesChars(m: int)
    ensures forall c :: c in FormatMinutes(m) ==> IsDigit(c) || c == '.' || c == '-'
  {
    var mag := Abs(m);
    var digits := NatToString(mag / 100) + "." + TwoDigits(mag % 100);
    var sign := if m < 0 then "-" else "";
    assert forall c :: c in digits ==> IsDigit(c) || c == '.';
    var padded := PadLeft(digits, 5 - |sign|, '0');
    assert forall i :: 0 <= i < |padded| ==> padded[i] == '0' || padded[i] in digits;
    assert FormatMinutes(m) == sign + padded;
  }

  /** Formatted positions never contain the packet's separators. */
  lemma {:induction false} PositionHasNoSeparators(v: Coord, d: nat, pos: char, neg: char)
    requires PositionChar(pos) && PositionChar(neg)
    ensures forall c :: c in FormatAxisAprs(v, d, pos, neg) ==> PositionChar(c)
    ensures '/' !in FormatAxisAprs(v, d, pos, neg) && ':' !in FormatAxisAprs(v, d, pos, neg)
  {
    PaddedDigitsChars(Abs(v) / PerDegree, d);
    MinutesChars(Abs(v) % PerDegree);
  }

  /** Every packet `send_message` builds reads back as its callsign, suffix,
      formatted position and message. */
  lemma SentPacketDecodes(callsign: string, suffix: nat, lat: Coord, lon: Coord, message: string)
    requires '>' !in callsign
    ensures ParsePacket(Packet(callsign, suffix, FormatLatitudeAprs(lat), FormatLongitudeAprs(lon), message))
        == Some(PacketFields(callsign, suffix, FormatLatitudeAprs(lat), FormatLongitudeAprs(lon), message))
  {
    PositionHasNoSeparators(lat, 2, 'N', 'S');
    PositionHasNoSeparators(lon, 3, 'E', 'W');
    PacketRoundTrip(callsign, suffix, FormatLatitudeAprs(lat), FormatLongitudeAprs(lon), message);
  }

  /** A receiver decoding a sent packet recovers the coordinates it was sent
      for, to the hundredth of a minute. */
  lemma SentPositionDecodes(callsign: string, suffix: nat, lat: Coord, lon: Coord, message: string)
    requires '>' !in callsign
    requires Abs(lat) <= 90 * PerDegree && Abs(lon) <= 180 * PerDegree
    ensures var f := ParsePacket(Packet(callsign, suffix, FormatLatitudeAprs(lat), FormatLongitudeAprs(lon), message));
      f.Some? && ParseLatitude(f.value.lat) == Some(lat) && ParseLongitude(f.value.lon) == Some(lon)
  {
    SentPacketDecodes(callsign, suffix, lat, lon, message);
    LatitudeAprsRoundTrip(lat);
    LongitudeAprsRoundTrip(lon);
  }

  /** The no-fire packet carries the body `T No fires today` and a position
      that decodes to 34 degrees north, 31 degrees east, whatever the
      suffix; its fields are the formatter's fields for that position. */
  lemma NoFirePacketFields(callsign: string, suffix: nat)
    requires '>' !in callsign
    ensures ParsePacket(NoFirePacket(callsign, suffix))
        == Some(PacketFields(callsign, suffix, NoFireLatitude, NoFireLongitude, NoFireBody))
    ensures FormatLatitudeAprs(34 * PerDegree) == NoFireLatitude
    ensures FormatLongitudeAprs(31 * PerDegree) == NoFireLongitude
    ensures ParseLatitude(NoFireLatitude) == Some(34 * PerDegree)
    ensures ParseLongitude(NoFireLongitude) == Some(31 * PerDegree)
  {
    NoFireLatitudeField();
    NoFireLongitudeField();
    SentPacketDecodes(callsign, suffix, 34 * PerDegree, 31 * PerDegree, NoFireBody);
    LatitudeAprsRoundTrip(34 * PerDegree);
    LongitudeAprsRoundTrip(31 * PerDegree);
  }

  lemma ZeroMinutes()
    ensures FormatMinutes(0) == "00.00"
  {
    var digits := NatToString(0) + "." + TwoDigits(0);
    assert digits == "0.00";
    assert PadLeft(digits, 5, '0') == Repeat('0', 1) + digits;
  }

  lemma NoFireLatitudeField()
    ensures FormatLatitudeAprs(34 * PerDegree) == NoFireLatitude
  {
    var v := 34 * PerDegree;
    assert Abs(v) / PerDegree == 34 && Abs(v) % PerDegree == 0;
    assert NatToString(34) == NatToString(3) + [DigitChar(4)] == "34";
    ZeroMinutes();
  }

  lemma NoFireLongitudeField()
    ensures FormatLongitudeAprs(31 * PerDegree) == NoFireLongitude
  {
    var v := 31 * PerDegree;
    assert Abs(v) / PerDegree == 31 && Abs(v) % PerDegree == 0;
    assert PadLeft(NatToString(31), 3, '0') == "031" by {
      assert NatToString(31) == NatToString(3) + [DigitChar(1)] == "31";
      assert PadLeft("31", 3, '0') == Repeat('0', 1) + "31";
    }
    ZeroMinutes();
  }

  /** The fixed no-fire position as written is decimal degrees, not the
      `DDMM.mm` form of an APRS position, so neither field decodes. */
  lemma NoFirePositionMalformed()
    ensures ParseLatitude(WrittenNoFireLatitude) == None
    ensures ParseLongitude(WrittenNoFireLongitude) == None
  {
    assert WrittenNoFireLatitude[2..4][0] == '.';
    assert !IsDigit(WrittenNoFireLatitude[2..4][0]);
    assert |WrittenNoFireLongitude| == 8;
  }

  /** What the sender did to the gateway socket. */
  datatype Event = Sent(line: string) | DisconnectCalled

  /** The number of `disconnect` calls in a trace. */
  function Disconnects(wire: seq<Event>): nat {
    if wire == [] then 0
    else Disconnects(wire[..|wire| - 1]) + (if wire[|wire| - 1].DisconnectCalled? then 1 else 0)
  }

  class AprsSender {
    const callsign: string
    const password: string
    const comment: string
    const symbol: string
    const port: int
    /** The station suffix of the next packet. */
    var suffix: nat
    /** Whether the gateway connection is open. */
    var connected: bool
    /** What the gateway socket has seen so far. */
    var wire: seq<Event>

    /** `__init__` once `aprslib.IS(...).connect()` has succeeded. */
    constructor (cfg: AprsConfig)
      ensures callsign == cfg.callsign && password == cfg.password && comment == cfg.comment
      ensures symbol == cfg.symbol && port == cfg.port
      ensures suffix == FirstSuffix && connected && wire == []
    {
      callsign, password, comment, symbol, port := cfg.callsign, cfg.password, cfg.comment, cfg.symbol, cfg.port;
      suffix := FirstSuffix;
      connected := true;
      wire := [];
    }

    /** `APRSSender(config)`: a connected sender when the gateway is
        reachable; otherwise the constructor raises, which is `null` here. */
    static method Open(cfg: AprsConfig, reachable: bool) returns (s: AprsSender?)
      ensures reachable <==> s != null
      ensures s != null ==>
        fresh(s) && s.callsign == cfg.callsign && s.suffix == FirstSuffix && s.connected && s.wire == []
    {
      if reachable {
        s := new AprsSender(cfg);
      } else {
        s := null;
      }
    }

    /** `send_message`: one packet at the current suffix, which then goes up
        by one. A failing `sendall` is caught: nothing is recorded and the
        suffix stays. The position fields are the corrected `DDMM.mm` ones
        (see `Coordinates.AsWrittenAgreesIff` for where the source differs). */
    method SendMessage(latitude: Coord, longitude: Coord, message: string, delivered: bool)
      modifies this
      ensures delivered ==> wire == old(wire) + [Sent(Packet(callsign, old(suffix),
                              FormatLatitudeAprs(latitude), FormatLongitudeAprs(longitude), message))]
      ensures delivered ==> suffix == old(suffix) + 1
      ensures !delivered ==> wire == old(wire) && suffix == old(suffix)
      ensures connected == old(connected)
    {
      var (lat, lon) := FormatCoordinatesAprs(latitude, longitude);
      var full := Packet(callsign, suffix, lat, lon, message);
      if delivered {
        wire := wire + [Sent(full)];
        suffix := suffix + 1;
      }
    }

    /** `send_no_fire_message`: the fixed no-fire packet, with the same
        suffix and failure rules as `send_message`; its position is the
        corrected one (see `NoFirePositionMalformed`). */
    method SendNoFireMessage(delivered: bool)
      modifies this
      ensures delivered ==> wire == old(wire) + [Sent(NoFirePacket(callsign, old(suffix)))]
      ensures delivered ==> suffix == old(suffix) + 1
      ensures !delivered ==> wire == old(wire) && suffix == old(suffix)
      ensures connected == old(connected)
    {
      var full := Packet(callsign, suffix, NoFireLatitude, NoFireLongitude, NoFireBody);
      if delivered {
        wire := wire + [Sent(full)];
        suffix := suffix + 1;
      }
    }

    /** `disconnect`: never raises. The call is recorded whatever the state;
        the connection closes only when the library call succeeds. */
    method Disconnect(closes: bool)
      modifies this
      ensures wire == old(wire) + [DisconnectCalled]
      ensures connected == (old(connected) && !closes)
      ensures suffix == old(suffix)
    {
      wire := wire + [DisconnectCalled];
      if closes {
        connected := false;
      }
    }
  }
}

=== FILE: aqi_fetcher.dfy ===
/** `AQIFetcher`: the locality that reverse geocoding yields, the reading of
    the air-quality API's JSON answer, and the chaining of the two.

    The geocoder's answer and the HTTP response are inputs. Exceptions the
    source catches become `None`; the one kind it does not catch (calling
    `.get` on a JSON value that is not an object) is `Raises`. */
module Aqi {
  import opened Wrappers
  import opened Text

  /** A JSON value as `response.json()` returns it. Numbers keep their text. */
  datatype Json =
    | JNull
    | JBool(b: bool)
    | JNumber(text: string)
    | JString(s: string)
    | JArray(items: seq<Json>)
    | JObject(fields: map<string, Json>)

  /** A Python call that returns a value or raises an exception that no
      handler of the source catches. */
  datatype Py<T> = Returns(value: T) | Raises

  /** `obj.get(key, default)`: only dictionaries have `.get`; on any other
      value the call raises AttributeError. */
  function DictGet(obj: Json, key: string, default: Json): (r: Py<Json>)
    ensures r.Raises? <==> !obj.JObject?
    ensures obj.JObject? && key in obj.fields ==> r == Returns(obj.fields[key])
    ensures obj.JObject? && key !in obj.fields ==> r == Returns(default)
  {
    match obj
    case JObject(fields) => Returns(if key in fields then fields[key] else default)
    case _ => Raises
  }

  /** `Nominatim.reverse(...)`: a service error (GeocoderServiceError or
      GeocoderUnavailable), no result, or a location whose raw record may
      lack an `address`. */
  datatype GeoResult = GeocoderError | NoLocation | Location(address: Option<map<string, string>>)

  /** The address fields tried, in order. */
  const Localities: seq<string> := ["city", "town", "village", "hamlet"]

  /** A field is truthy when present and not the empty string. */
  predicate Truthy(address: map<string, string>, key: string) {
    key in address && address[key] != ""
  }

  /** `get_location_name`: `city or town or village or hamlet`, and `None`
      when there is no location, no truthy field, or a geocoder error. */
  function GetLocationName(geo: GeoResult): (city: Option<string>)
    ensures city.Some? ==> city.value != ""
    ensures !geo.Location? ==> city == None
  {
    match geo
    case GeocoderError => None
    case NoLocation => None
    case Location(raw) =>
      var address := raw.GetOr(map[]);
      if Truthy(address, "city") then Some(address["city"])
      else if Truthy(address, "town") then Some(address["town"])
      else if Truthy(address, "village") then Some(address["village"])
      else if Truthy(address, "hamlet") then Some(address["hamlet"])
      else None
  }

  /** The value of the first truthy key of `keys`, in order. */
  function FirstTruthy(address: map<string, string>, keys: seq<string>): (r: Option<string>)
    ensures r.Some? ==> exists i :: 0 <= i < |keys| && Truthy(address, keys[i]) && r.value == address[keys[i]]
                                     && forall j :: 0 <= j < i ==> !Truthy(address, keys[j])
    ensures r.None? ==> forall j :: 0 <= j < |keys| ==> !Truthy(address, keys[j])
  {
    if keys == [] then None
    else if Truthy(address, keys[0]) then
      Some(address[keys[0]])
    else
      var r := FirstTruthy(address, keys[1..]);
      if r.Some? then
        var i :| 0 <= i < |keys[1..]| && Truthy(address, keys[1..][i]) && r.value == address[keys[1..][i]]
                 && forall j :: 0 <= j < i ==> !Truthy(address, keys[1..][j]);
        assert Truthy(address, keys[i + 1]) && forall j :: 0 <= j < i + 1 ==> !Truthy(address, keys[j]);
        r
      else r
  }

  /** The or-chain is the first truthy locality in the order city, town,
      village, hamlet. */
  lemma LocalityFallback(address: map<string, string>)
    ensures GetLocationName(Location(Some(address))) == FirstTruthy(address, Localities)
    ensures GetLocationName(Location(None)) == None
  {
    var ks := Localities;
    assert ks[1..] == ["town", "village", "hamlet"];
    assert ks[1..][1..] == ["village", "hamlet"];
    assert ks[1..][1..][1..] == ["hamlet"];
    assert ks[1..][1..][1..][1..] == [];
    assert FirstTruthy(address, ks[1..][1..][1..]) ==
      if Truthy(address, "hamlet") then Some(address["hamlet"]) else None;
    assert FirstTruthy(address, ks[1..][1..]) ==
      if Truthy(address, "village") then Some(address["village"]) else FirstTruthy(address, ks[1..][1..][1..]);
    assert FirstTruthy(address, ks[1..]) ==
      if Truthy(address, "town") then Some(address["town"]) else FirstTruthy(address, ks[1..][1..]);
  }

  /** The request URL of `fetch_aqi`. */
  function AqiUrl(city: string, authtoken: string): (url: string)
    ensures StartsWith(url, "http://api.waqi.info/feed/") && EndsWith(url, "/?token=" + authtoken)
  {
    "http://api.waqi.info/feed/" + city + "/?token=" + authtoken
  }

  /** Different cities give different URLs under the same token. */
  lemma AqiUrlInjective(c1: string, c2: string, authtoken: string)
    requires AqiUrl(c1, authtoken) == AqiUrl(c2, authtoken)
    ensures c1 == c2
  {
    var p := "http://api.waqi.info/feed/";
    var u := AqiUrl(c1, authtoken);
    assert u[|p|..|p| + |c1|] == c1;
    assert AqiUrl(c2, authtoken)[|p|..|p| + |c2|] == c2;
  }

  /** The outcome of `session.get(url)` and `raise_for_status()`: an HTTP
      error, or a body that is JSON (`Some`) or fails to decode (`None`). */
  datatype HttpResponse = RequestFailed | Received(body: Option<Json>)

  predicate StatusOk(data: Json) {
    data.JObject? && "status" in data.fields && data.fields["status"] == JString("ok")
  }

  /** The answers that `fetch_aqi` reads without an uncaught exception: the
      body is an object and, when the status is ok and there is a `data`
      object, its `iaqi` and `iaqi.t`, where present, are objects too. */
  predicate WellShaped(data: Json) {
    && data.JObject?
    && (StatusOk(data) && "data" in data.fields ==>
          var d := data.fields["data"];
          && d.JObject?
          && ("iaqi" in d.fields ==>
                && d.fields["iaqi"].JObject?
                && ("t" in d.fields["iaqi"].fields ==> d.fields["iaqi"].fields["t"].JObject?)))
  }

  /** `fetch_aqi`: the temperature `data.iaqi.t.v`, `None` on any failure
      the source catches. */
  function FetchAqi(response: HttpResponse): (r: Py<Option<Json>>)
    ensures r.Raises? <==> response.Received? && response.body.Some? && !WellShaped(response.body.value)
    ensures r.Returns? && r.value.Some? ==> r.value.value != JNull
    ensures response.RequestFailed? || response == Received(None) ==> r == Returns(None)
  {
    match response
    case RequestFailed => Returns(None)
    case Received(None) => Returns(None)
    case Received(Some(data)) =>
      match DictGet(data, "status", JNull)
      case Raises => Raises
      case Returns(status) =>
        if status != JString("ok") then Returns(None)
        else if "data" !in data.fields then Returns(None)
        else
          var d := data.fields["data"];
          match DictGet(d, "aqi", JNull)
          case Raises => Raises
          case Returns(_) =>
            match DictGet(d, "iaqi", JObject(map[]))
            case Raises => Raises
            case Returns(iaqi) =>
              match DictGet(iaqi, "t", JObject(map[]))
              case Raises => Raises
              case Returns(t) =>
                match DictGet(t, "v", JNull)
                case Raises => Raises
                case Returns(v) => Returns(if v == JNull then None else Some(v))
  }

  /** Any status other than `ok` yields `None`. */
  lemma StatusNotOkIsNone(fields: map<string, Json>)
    requires !StatusOk(JObject(fields))
    ensures FetchAqi(Received(Some(JObject(fields)))) == Returns(None)
  {
  }

  /** With status ok, the value at `data.iaqi.t.v` is returned unchanged. */
  lemma TemperatureFound(fields: map<string, Json>, d: map<string, Json>, iaqi: map<string, Json>,
                         t: map<string, Json>, v: Json)
    requires StatusOk(JObject(fields)) && "data" in fields && fields["data"] == JObject(d)
    requires "iaqi" in d && d["iaqi"] == JObject(iaqi) && "t" in iaqi && iaqi["t"] == JObject(t)
    requires "v" in t && t["v"] == v && v != JNull
    ensures FetchAqi(Received(Some(JObject(fields)))) == Returns(Some(v))
  {
  }

  /** With status ok and a `data` object, a missing `iaqi`, `t` or `v`
      yields `None`, and so does a missing `data`. */
  lemma TemperatureMissing(fields: map<string, Json>)
    requires StatusOk(JObject(fields)) && WellShaped(JObject(fields))
    requires "data" in fields ==>
      var d := fields["data"].fields;
      "iaqi" !in d || "t" !in d["iaqi"].fields || "v" !in d["iaqi"].fields["t"].fields
    ensures FetchAqi(Received(Some(JObject(fields)))) == Returns(None)
  {
  }

  datatype AqiFetcher = AqiFetcher(authtoken: string)

  /** What `get_aqi_temperature` returns, with the URLs it requested. */
  datatype TempLookup = TempLookup(result: Py<Option<Json>>, requested: seq<string>)

  /** `get_aqi_temperature`: resolve the city, then fetch its reading; with
      no city the API is not asked at all. */
  function GetAqiTemperature(fetcher: AqiFetcher, geo: GeoResult, respond: string -> HttpResponse)
    : (r: TempLookup)
    ensures GetLocationName(geo).None? ==> r == TempLookup(Returns(None), [])
    ensures GetLocationName(geo).Some? ==>
      var url := AqiUrl(GetLocationName(geo).value, fetcher.authtoken);
      r.requested == [url] && r.result == FetchAqi(respond(url))
  {
    match GetLocationName(geo)
    case None => TempLookup(Returns(None), [])
    case Some(city) =>
      var url := AqiUrl(city, fetcher.authtoken);
      TempLookup(FetchAqi(respond(url)), [url])
  }

  /** Geocoder errors and geocoder misses never reach the API. */
  lemma NoCityNoRequest(fetcher: AqiFetcher, geo: GeoResult, respond: string -> HttpResponse)
    requires geo.GeocoderError? || geo.NoLocation?
             || (geo.Location? && forall k :: k in Localities ==> !Truthy(geo.address.GetOr(map[]), k))
    ensures GetAqiTemperature(fetcher, geo, respond) == TempLookup(Returns(None), [])
  {
    if geo.Location? {
      var a := geo.address.GetOr(map[]);
      assert "city" in Localities && "town" in Localities && "village" in Localities && "hamlet" in Localities;
    }
  }
}

=== FILE: config.dfy ===
/** `Config`: loading `config.ini`, checking that every required section and
    option is present, and the per-section getters.

    The parsed file is an `Ini` value: its sections and the `DEFAULT`
    section. Option names are stored as the parser folds them (lower case);
    every required name is already lower case. */
module Config {
  import opened Wrappers

  datatype Ini = Ini(sections: map<string, map<string, string>>, defaults: map<string, string>)

  /** `has_section`: the `DEFAULT` section is not a section of its own. */
  predicate HasSection(ini: Ini, section: string) {
    section in ini.sections
  }

  /** `has_option`: the section must exist; the option may come from it or
      from `DEFAULT`. */
  predicate HasOption(ini: Ini, section: string, key: string) {
    section in ini.sections && (key in ini.sections[section] || key in ini.defaults)
  }

  /** `get`: the section's own value wins over the default. */
  function Get(ini: Ini, section: string, key: string): (v: string)
    requires HasOption(ini, section, key)
    ensures key in ini.sections[section] ==> v == ini.sections[section][key]
    ensures key !in ini.sections[section] ==> v == ini.defaults[key]
  {
    if key in ini.sections[section] then ini.sections[section][key] else ini.defaults[key]
  }

  /** The required sections and their options, in the order they are checked. */
  const Required: seq<(string, seq<string>)> := [
    ("viirs", ["url", "filepath", "latitude1", "latitude2", "longitude1", "longitude2"]),
    ("aprssend", ["callsign", "password", "comment", "symbol", "port"]),
    ("AQI", ["authtoken"]),
    ("newsfeed", ["link", "keyword"]),
    ("logging", ["level", "log_file"])
  ]

  /** What `validate_config` reports in its ValueError. */
  datatype Missing = MissingSection(section: string) | MissingOption(section: string, key: string)

  /** Every requirement of `req` is met. */
  predicate Complete(ini: Ini, req: seq<(string, seq<string>)>) {
    forall i :: 0 <= i < |req| ==>
      HasSection(ini, req[i].0) && forall j :: 0 <= j < |req[i].1| ==> HasOption(ini, req[i].0, req[i].1[j])
  }

  predicate Valid(ini: Ini) {
    Complete(ini, Required)
  }

  /** The first option of `keys` that `section` lacks. */
  function FirstMissingOption(ini: Ini, section: string, keys: seq<string>): (r: Option<Missing>)
    ensures r.None? <==> forall j :: 0 <= j < |keys| ==> HasOption(ini, section, keys[j])
    ensures r.Some? ==> r.value.MissingOption? && r.value.section == section
                        && r.value.key in keys && !HasOption(ini, section, r.value.key)
    ensures r.Some? ==> exists j :: 0 <= j < |keys| && keys[j] == r.value.key
                                    && forall j' :: 0 <= j' < j ==> HasOption(ini, section, keys[j'])
  {
    if keys == [] then None
    else if !HasOption(ini, section, keys[0]) then Some(MissingOption(section, keys[0]))
    else
      var r := FirstMissingOption(ini, section, keys[1..]);
      assert forall j :: 1 <= j < |keys| ==> keys[j] == keys[1..][j - 1];
      if r.Some? then
        var j :| 0 <= j < |keys[1..]| && keys[1..][j] == r.value.key
                 && forall j' :: 0 <= j' < j ==> HasOption(ini, section, keys[1..][j']);
        assert keys[j + 1] == r.value.key && forall j' :: 0 <= j' < j + 1 ==> HasOption(ini, section, keys[j']);
        r
      else r
  }

  /** The first requirement of `req` that is not met, sections in order and
      within a section its options in order. */
  function FirstMissing(ini: Ini, req: seq<(string, seq<string>)>): (r: Option<Missing>)
    ensures r.Some? && r.value.MissingSection? ==> !HasSection(ini, r.value.section)
    ensures r.Some? && r.value.MissingOption? ==>
      HasSection(ini, r.value.section) && !HasOption(ini, r.value.section, r.value.key)
  {
    if req == [] then None
    else if !HasSection(ini, req[0].0) then Some(MissingSection(req[0].0))
    else
      match FirstMissingOption(ini, req[0].0, req[0].1)
      case Some(m) => Some(m)
      case None => FirstMissing(ini, req[1..])
  }

  /** Validation passes exactly when every requirement is met. */
  lemma {:induction false} FirstMissingNoneIff(ini: Ini, req: seq<(string, seq<string>)>)
    ensures FirstMissing(ini, req).None? <==> Complete(ini, req)
  {
    if req != [] {
      FirstMissingNoneIff(ini, req[1..]);
      assert forall i :: 1 <= i < |req| ==> req[i] == req[1..][i - 1];
      if Complete(ini, req[1..]) && HasSection(ini, req[0].0)
         && FirstMissingOption(ini, req[0].0, req[0].1).None? {
        forall i | 0 <= i < |req|
          ensures HasSection(ini, req[i].0)
                  && forall j :: 0 <= j < |req[i].1| ==> HasOption(ini, req[i].0, req[i].1[j])
        {
          if i > 0 {
            assert req[i] == req[1..][i - 1];
          }
        }
      }
    }
  }

  /** A reported problem is an actual requirement of `req`. */
  lemma {:induction false} FirstMissingIsRequired(ini: Ini, req: seq<(string, seq<string>)>)
    requires FirstMissing(ini, req).Some?
    ensures exists i :: 0 <= i < |req| && req[i].0 == FirstMissing(ini, req).value.section
    ensures FirstMissing(ini, req).value.MissingOption? ==>
      exists i :: 0 <= i < |req| && req[i].0 == FirstMissing(ini, req).value.section
                                  && FirstMissing(ini, req).value.key in req[i].1
  {
    var m := FirstMissing(ini, req).value;
    if !HasSection(ini, req[0].0) || FirstMissingOption(ini, req[0].0, req[0].1).Some? {
      assert req[0].0 == m.section;
    } else {
      FirstMissingIsRequired(ini, req[1..]);
      var i :| 0 <= i < |req[1..]| && req[1..][i].0 == m.section
               && (m.MissingOption? ==> m.key in req[1..][i].1);
      assert req[i + 1] == req[1..][i];
    }
  }

  /** What is reported is the first gap in declaration order: every earlier
      requirement is met, and the reported one is either its section, when
      that is absent, or the first absent option of that section. */
  lemma {:induction false} FirstMissingIsFirst(ini: Ini, req: seq<(string, seq<string>)>)
    requires FirstMissing(ini, req).Some?
    ensures exists i :: (0 <= i < |req| && Complete(ini, req[..i])
      && (if HasSection(ini, req[i].0)
          then FirstMissingOption(ini, req[i].0, req[i].1) == FirstMissing(ini, req)
          else FirstMissing(ini, req) == Some(MissingSection(req[i].0))))
  {
    if HasSection(ini, req[0].0) && FirstMissingOption(ini, req[0].0, req[0].1).None? {
      FirstMissingIsFirst(ini, req[1..]);
      var i :| 0 <= i < |req[1..]| && Complete(ini, req[1..][..i])
        && (if HasSection(ini, req[1..][i].0)
            then FirstMissingOption(ini, req[1..][i].0, req[1..][i].1) == FirstMissing(ini, req[1..])
            else FirstMissing(ini, req[1..]) == Some(MissingSection(req[1..][i].0)));
      assert req[1..][i] == req[i + 1];
      var met := req[..i + 1];
      forall k | 0 <= k < |met|
        ensures HasSection(ini, met[k].0) && forall j :: 0 <= j < |met[k].1| ==> HasOption(ini, met[k].0, met[k].1[j])
      {
        if k > 0 {
          assert met[k] == req[1..][..i][k - 1];
        }
      }
    } else {
      assert req[..0] == [];
    }
  }

  /** `ini2` has every section, option and default that `ini` has. */
  predicate Extends(ini2: Ini, ini: Ini) {
    && (forall s :: s in ini.sections ==> s in ini2.sections && ini.sections[s].Keys <= ini2.sections[s].Keys)
    && ini.defaults.Keys <= ini2.defaults.Keys
  }

  /** Extra sections and options never make a valid file invalid. */
  lemma ExtraEntriesKeepValid(ini: Ini, ini2: Ini)
    requires Valid(ini) && Extends(ini2, ini)
    ensures Valid(ini2)
  {
    forall i, j | 0 <= i < |Required| && 0 <= j < |Required[i].1|
      ensures HasOption(ini2, Required[i].0, Required[i].1[j])
    {
      assert HasOption(ini, Required[i].0, Required[i].1[j]);
    }
  }

  /** `validate_config`: the nested loops over the required sections and
      options; the first gap found is returned, `None` when there is none. */
  method ValidateConfig(ini: Ini) returns (r: Option<Missing>)
    ensures r == FirstMissing(ini, Required)
  {
    r := FindMissing(ini, Required);
  }

  /** The outer loop, over sections in order. */
  method FindMissing(ini: Ini, req: seq<(string, seq<string>)>) returns (r: Option<Missing>)
    ensures r == FirstMissing(ini, req)
  {
    var i := 0;
    while i < |req|
      invariant 0 <= i <= |req|
      invariant FirstMissing(ini, req) == FirstMissing(ini, req[i..])
    {
      var section := req[i].0;
      if !HasSection(ini, section) {
        return Some(MissingSection(section));
      }
      var gap := FindMissingOption(ini, section, req[i].1);
      if gap.Some? {
        return gap;
      }
      assert req[i..][1..] == req[i + 1..];
      i := i + 1;
    }
    return None;
  }

  /** The inner loop, over the options of one section in order. */
  method FindMissingOption(ini: Ini, section: string, keys: seq<string>) returns (r: Option<Missing>)
    ensures r == FirstMissingOption(ini, section, keys)
  {
    var j := 0;
    while j < |keys|
      invariant 0 <= j <= |keys|
      invariant FirstMissingOption(ini, section, keys) == FirstMissingOption(ini, section, keys[j..])
    {
      if !HasOption(ini, section, keys[j]) {
        return Some(MissingOption(section, keys[j]));
      }
      assert keys[j..][1..] == keys[j + 1..];
      j := j + 1;
    }
    return None;
  }

  datatype ConfigError = FileNotFound(path: string) | Invalid(missing: Missing)

  /** `load_config`: the files that exist, by path, parsed. */
  function LoadConfig(path: string, files: map<string, Ini>): (r: Result<Ini, ConfigError>)
    ensures r.Success? <==> path in files
    ensures r.Success? ==> r.value == files[path]
    ensures r.Failure? ==> r.error == FileNotFound(path)
  {
    if path in files then Success(files[path]) else Failure(FileNotFound(path))
  }

  /** A loaded and validated configuration. */
  datatype Settings = Settings(ini: Ini)

  /** `Config(config_path)`: load, then validate. */
  method NewConfig(path: string, files: map<string, Ini>) returns (r: Result<Settings, ConfigError>)
    ensures path !in files ==> r == Failure(FileNotFound(path))
    ensures path in files ==> (r.Success? <==> Valid(files[path]))
    ensures path in files && r.Failure? ==>
      FirstMissing(files[path], Required).Some? && r == Failure(Invalid(FirstMissing(files[path], Required).value))
    ensures r.Success? ==> r.value.ini == files[path] && Valid(r.value.ini)
  {
    var loaded := LoadConfig(path, files);
    if loaded.Failure? {
      return Failure(loaded.error);
    }
    var missing := ValidateConfig(loaded.value);
    FirstMissingNoneIff(loaded.value, Required);
    if missing.Some? {
      return Failure(Invalid(missing.value));
    }
    return Success(Settings(loaded.value));
  }

  /** The options of a required section. */
  function RequiredKeys(i: nat): seq<string>
    requires i < |Required|
  {
    Required[i].1
  }

  /** A getter: the listed options of `section`, each read with `get`. */
  function SectionSettings(ini: Ini, section: string, keys: seq<string>): (m: map<string, string>)
    requires forall k :: k in keys ==> HasOption(ini, section, k)
    ensures m.Keys == set k | k in keys
    ensures forall k :: k in keys ==> m[k] == Get(ini, section, k)
  {
    map k | k in keys :: Get(ini, section, k)
  }

  /** The options of `Required[i]` can all be read from a valid file. */
  lemma ValidReadable(ini: Ini, i: nat)
    requires Valid(ini) && i < |Required|
    ensures forall k :: k in RequiredKeys(i) ==> HasOption(ini, Required[i].0, k)
  {
    forall k | k in RequiredKeys(i)
      ensures HasOption(ini, Required[i].0, k)
    {
      var j :| 0 <= j < |Required[i].1| && Required[i].1[j] == k;
    }
  }

  /** `get_viirs_config`, before the float conversions. */
  function ViirsSettings(c: Settings): (m: map<string, string>)
    requires Valid(c.ini)
    ensures m.Keys == {"url", "filepath", "latitude1", "latitude2", "longitude1", "longitude2"}
  {
    ValidReadable(c.ini, 0);
    SectionSettings(c.ini, "viirs", RequiredKeys(0))
  }

  /** `get_aprs_config`, before the integer conversion of `port`. */
  function AprsSettings(c: Settings): (m: map<string, string>)
    requires Valid(c.ini)
    ensures m.Keys == {"callsign", "password", "comment", "symbol", "port"}
  {
    ValidReadable(c.ini, 1);
    SectionSettings(c.ini, "aprssend", RequiredKeys(1))
  }

  /** `get_aqi_config`. */
  function AqiSettings(c: Settings): (m: map<string, string>)
    requires Valid(c.ini)
    ensures m.Keys == {"authtoken"}
  {
    ValidReadable(c.ini, 2);
    SectionSettings(c.ini, "AQI", RequiredKeys(2))
  }

  /** `get_newsfeed_config`. */
  function NewsfeedSettings(c: Settings): (m: map<string, string>)
    requires Valid(c.ini)
    ensures m.Keys == {"link", "keyword"}
  {
    ValidReadable(c.ini, 3);
    SectionSettings(c.ini, "newsfeed", RequiredKeys(3))
  }

  /** `get_logging_config`. */
  function LoggingSettings(c: Settings): (m: map<string, string>)
    requires Valid(c.ini)
    ensures m.Keys == {"level", "log_file"}
  {
    ValidReadable(c.ini, 4);
    SectionSettings(c.ini, "logging", RequiredKeys(4))
  }
}

=== FILE: coordinates.dfy ===
/** The APRS position fields built by `APRSSender.format_coordinates`.

    Angles are exact fixed-point values: a `Coord` counts hundredths of an
    arc-minute, so one degree is 6000 and 34.5 degrees is 207000. */
module Coordinates {
  import opened Text
  import opened Wrappers

  /** A signed angle in hundredths of an arc-minute. */
  type Coord = int

  const PerDegree: nat := 6000

  /** Python's `int(x)` of an angle x in degrees: whole degrees, truncated
      toward zero, so that `int(-34.5) == -34`. */
  function IntDegrees(v: Coord): (q: int)
    ensures Abs(q) == Abs(v) / PerDegree
    ensures v >= 0 ==> q >= 0
    ensures v < 0 ==> q <= 0
  {
    if v >= 0 then v / PerDegree else -((-v) / PerDegree)
  }

  function Abs(a: int): nat { if a < 0 then -a else a }

  /** Whole degrees and signed minutes of an angle, as `int(x)` and
      `(x - int(x)) * 60` compute them: both parts carry the sign of x. */
  lemma TruncSplit(v: Coord)
    ensures Abs(IntDegrees(v)) == Abs(v) / PerDegree
    ensures v - IntDegrees(v) * PerDegree
        == if v < 0 then -(Abs(v) % PerDegree) else Abs(v) % PerDegree
    ensures IntDegrees(v) >= 0 <==> v > -(PerDegree as int)
  {
  }

  /** Two decimal digits of r < 100, as the fractional part of `%.2f`. */
  function TwoDigits(r: nat): (s: string)
    requires r < 100
    ensures |s| == 2 && AllDigits(s) && ParseDigits(s) == r
  {
    var s := [DigitChar(r / 10), DigitChar(r % 10)];
    assert s[..1][..0] == [];
    assert s[..1] == [DigitChar(r / 10)];
    assert ParseDigits(s[..1]) == r / 10;
    s
  }

  /** Python's `f"{m:05.2f}"` for m hundredths of a minute: the sign, then
      the digits zero-padded so that the whole field is at least five wide. */
  function FormatMinutes(m: int): string {
    var mag := Abs(m);
    var sign := if m < 0 then "-" else "";
    var digits := NatToString(mag / 100) + "." + TwoDigits(mag % 100);
    sign + PadLeft(digits, 5 - |sign|, '0')
  }

  /** One axis of `format_coordinates` as the source writes it: the whole
      degrees are `int(x)`, the minutes `(x - int(x)) * 60` keep the sign of
      x, and the hemisphere letter follows the sign of the whole degrees. */
  function FormatAxis(v: Coord, degDigits: nat, pos: char, neg: char): string {
    var deg := IntDegrees(v);
    var mins := v - deg * PerDegree;
    if deg >= 0 then PadLeft(NatToString(deg), degDigits, '0') + FormatMinutes(mins) + [pos]
    else PadLeft(NatToString(-deg), degDigits, '0') + FormatMinutes(mins) + [neg]
  }

  /** `formatted_lat`: `DDMM.mmN` or `DDMM.mmS`. */
  function FormatLatitude(v: Coord): string { FormatAxis(v, 2, 'N', 'S') }

  /** `formatted_lon`: `DDDMM.mmE` or `DDDMM.mmW`. */
  function FormatLongitude(v: Coord): string { FormatAxis(v, 3, 'E', 'W') }

  /** `format_coordinates(latitude, longitude)`. */
  function FormatCoordinates(lat: Coord, lon: Coord): (string, string) {
    (FormatLatitude(lat), FormatLongitude(lon))
  }

  /** The position field as APRS defines it and as the source evidently
      intends: degrees and minutes of the magnitude, the sign carried only by
      the hemisphere letter. */
  function FormatAxisAprs(v: Coord, degDigits: nat, pos: char, neg: char): string {
    var mag := Abs(v);
    PadLeft(NatToString(mag / PerDegree), degDigits, '0') + FormatMinutes(mag % PerDegree)
      + [if v < 0 then neg else pos]
  }

  function FormatLatitudeAprs(v: Coord): string { FormatAxisAprs(v, 2, 'N', 'S') }

  function FormatLongitudeAprs(v: Coord): string { FormatAxisAprs(v, 3, 'E', 'W') }

  /** `format_coordinates` with the corrected fields. */
  function FormatCoordinatesAprs(lat: Coord, lon: Coord): (string, string) {
    (FormatLatitudeAprs(lat), FormatLongitudeAprs(lon))
  }

  /** Decoding of an APRS position field `D..DMM.mmH` with `degDigits`
      degree digits; the minutes must be below 60. */
  function ParseAxis(s: string, degDigits: nat, pos: char, neg: char): Option<Coord> {
    var d := degDigits;
    if |s| != d + 6 then None
    else if !(AllDigits(s[..d]) && AllDigits(s[d..d + 2]) && s[d + 2] == '.'
              && AllDigits(s[d + 3..d + 5]) && (s[d + 5] == pos || s[d + 5] == neg)) then None
    else
      var deg := ParseDigits(s[..d]);
      var mins := ParseDigits(s[d..d + 2]);
      var hund := ParseDigits(s[d + 3..d + 5]);
      if mins >= 60 then None
      else
        var mag := deg * PerDegree + mins * 100 + hund;
        Some(if s[d + 5] == pos then mag else -mag)
  }

  function ParseLatitude(s: string): Option<Coord> { ParseAxis(s, 2, 'N', 'S') }

  function ParseLongitude(s: string): Option<Coord> { ParseAxis(s, 3, 'E', 'W') }

  /** For non-negative minutes below 60 the minutes field is `MM.mm`. */
  lemma MinutesShape(m: nat)
    requires m < PerDegree
    ensures FormatMinutes(m) == PadLeft(NatToString(m / 100), 2, '0') + "." + TwoDigits(m % 100)
    ensures |FormatMinutes(m)| == 5
  {
    NatToStringWidth(m / 100, 2);
    if m / 100 < 10 {
      NatToStringWidth(m / 100, 1);
    }
  }

  /** Negative minutes are printed with a leading minus sign. */
  lemma NegativeMinutesShape(m: int)
    requires m < 0
    ensures FormatMinutes(m)[0] == '-'
  {
  }

  /** The degree digits of a value in range fill exactly the padded width. */
  lemma DegreesShape(deg: nat, d: nat)
    requires d >= 1 && deg < Pow10(d)
    ensures |PadLeft(NatToString(deg), d, '0')| == d
    ensures AllDigits(PadLeft(NatToString(deg), d, '0'))
    ensures ParseDigits(PadLeft(NatToString(deg), d, '0')) == deg
  {
    NatToStringWidth(deg, d);
    ParsePadded(deg, d);
  }

  /** The source's field, regrouped: the degree digits of the magnitude,
      the minutes with the sign of the angle, and the letter chosen by the
      truncated whole degrees. */
  lemma AxisParts(v: Coord, d: nat, pos: char, neg: char)
    ensures FormatAxis(v, d, pos, neg)
        == PadLeft(NatToString(Abs(v) / PerDegree), d, '0')
           + FormatMinutes(if v < 0 then -(Abs(v) % PerDegree) else Abs(v) % PerDegree)
           + [if v > -(PerDegree as int) then pos else neg]
  {
    TruncSplit(v);
  }

  /** The hemisphere letter follows the truncated whole degrees: the positive
      letter exactly when `int(x) >= 0`, that is when x > -1 degree. */
  lemma {:induction false} HemisphereLetter(v: Coord, d: nat, pos: char, neg: char)
    requires pos != neg
    ensures var f := FormatAxis(v, d, pos, neg);
      |f| > 0 && (f[|f| - 1] == pos <==> IntDegrees(v) >= 0)
      && (IntDegrees(v) >= 0 <==> v > -(PerDegree as int))
  {
    AxisParts(v, d, pos, neg);
    TruncSplit(v);
  }

  lemma PaddedZero(d: nat)
    requires d >= 1
    ensures PadLeft(NatToString(0), d, '0') == Repeat('0', d)
  {
    assert NatToString(0) == "0";
    if d > 1 {
      assert Repeat('0', d) == Repeat('0', d - 1) + "0";
    }
  }

  /** Between -1 and 0 degrees the letter is the positive one, yet the
      minutes are negative: -0.5 degrees becomes `00-30.00N`. */
  lemma {:induction false} NearZeroNegative(v: Coord, d: nat, pos: char, neg: char)
    requires -(PerDegree as int) < v < 0 && d >= 1
    ensures var f := FormatAxis(v, d, pos, neg);
      |f| > d && f[..d] == Repeat('0', d) && f[d] == '-' && f[|f| - 1] == pos
  {
    AxisParts(v, d, pos, neg);
    var m := -(Abs(v) % PerDegree);
    assert Abs(v) / PerDegree == 0;
    PaddedZero(d);
    NegativeMinutesShape(m);
    var z := Repeat('0', d);
    var t := FormatMinutes(m);
    assert FormatAxis(v, d, pos, neg) == z + t + [pos];
  }

  /** The latitude field of a value in [0, 90) degrees is 8 characters. */
  lemma LatitudeWidth(v: Coord)
    requires 0 <= v < 90 * PerDegree
    ensures |FormatLatitude(v)| == 8
  {
    AxisParts(v, 2, 'N', 'S');
    DegreesShape(v / PerDegree, 2);
    MinutesShape(v % PerDegree);
  }

  /** The longitude field of a value in [0, 180) degrees is 9 characters. */
  lemma LongitudeWidth(v: Coord)
    requires 0 <= v < 180 * PerDegree
    ensures |FormatLongitude(v)| == 9
  {
    assert Pow10(3) == 1000;
    AxisParts(v, 3, 'E', 'W');
    DegreesShape(v / PerDegree, 3);
    MinutesShape(v % PerDegree);
  }

  /** Splitting a magnitude into degrees, whole minutes and hundredths and
      recombining it gives the magnitude back. */
  lemma Recompose(mag: nat, p: nat)
    requires mag < p * PerDegree
    ensures mag / PerDegree < p
    ensures (mag / PerDegree) * PerDegree + ((mag % PerDegree) / 100) * 100 + (mag % PerDegree) % 100 == mag
  {
  }

  /** Decoding a field assembled from d degree digits, the minutes `MM.mm`
      and the hemisphere letter of v gives back v, whose magnitude the
      digits spell. */
  lemma {:induction false} ParseParts(f: string, d: nat, a: string, mm: string, b: string, c: string,
                                      pos: char, neg: char, v: Coord)
    requires f == a + mm + [if v < 0 then neg else pos] && mm == b + "." + c
    requires |a| == d && |b| == 2 && |c| == 2 && AllDigits(a) && AllDigits(b) && AllDigits(c)
    requires pos != neg
    requires ParseDigits(b) < 60
    requires Abs(v) == ParseDigits(a) * PerDegree + ParseDigits(b) * 100 + ParseDigits(c)
    ensures ParseAxis(f, d, pos, neg) == Some(v)
  {
    assert f[..d] == a;
    assert f[d..d + 5] == mm;
    assert f[d..d + 2] == mm[..2] == b;
    assert f[d + 2] == mm[2] == '.';
    assert f[d + 3..d + 5] == mm[3..] == c;
  }

  /** The degree digits of the corrected field: exactly d of them, reading
      back as the whole degrees. */
  lemma DegreeDigits(mag: nat, d: nat)
    requires d >= 1 && mag < Pow10(d) * PerDegree
    ensures |PadLeft(NatToString(mag / PerDegree), d, '0')| == d
    ensures AllDigits(PadLeft(NatToString(mag / PerDegree), d, '0'))
    ensures ParseDigits(PadLeft(NatToString(mag / PerDegree), d, '0')) == mag / PerDegree
  {
    Recompose(mag, Pow10(d));
    DegreesShape(mag / PerDegree, d);
  }

  /** The minutes of the corrected field: two digits below 60, a point and
      the two digits of the hundredths. */
  lemma MinuteDigits(m: nat)
    requires m < PerDegree
    ensures FormatMinutes(m) == PadLeft(NatToString(m / 100), 2, '0') + "." + TwoDigits(m % 100)
    ensures |PadLeft(NatToString(m / 100), 2, '0')| == 2 && AllDigits(PadLeft(NatToString(m / 100), 2, '0'))
    ensures ParseDigits(PadLeft(NatToString(m / 100), 2, '0')) == m / 100 < 60
  {
    MinutesShape(m);
    assert Pow10(2) == 100;
    DegreesShape(m / 100, 2);
  }

  /** The corrected field decodes back to the value it encodes, for every
      angle whose whole degrees fit in the field. */
  lemma {:induction false} AprsRoundTrip(v: Coord, d: nat, pos: char, neg: char)
    requires d >= 1 && Abs(v) < Pow10(d) * PerDegree
    requires pos != neg
    ensures ParseAxis(FormatAxisAprs(v, d, pos, neg), d, pos, neg) == Some(v)
  {
    var mag := Abs(v);
    var m := mag % PerDegree;
    DegreeDigits(mag, d);
    MinuteDigits(m);
    Recompose(mag, Pow10(d));
    ParseParts(FormatAxisAprs(v, d, pos, neg), d, PadLeft(NatToString(mag / PerDegree), d, '0'), FormatMinutes(m),
               PadLeft(NatToString(m / 100), 2, '0'), TwoDigits(m % 100), pos, neg, v);
  }

  lemma LatitudeAprsRoundTrip(v: Coord)
    requires Abs(v) <= 90 * PerDegree
    ensures ParseLatitude(FormatLatitudeAprs(v)) == Some(v)
  {
    AprsRoundTrip(v, 2, 'N', 'S');
  }

  lemma LongitudeAprsRoundTrip(v: Coord)
    requires Abs(v) <= 180 * PerDegree
    ensures ParseLongitude(FormatLongitudeAprs(v)) == Some(v)
  {
    assert Pow10(3) == 1000;
    AprsRoundTrip(v, 3, 'E', 'W');
  }

  /** An angle is a whole number of degrees exactly when its magnitude is. */
  lemma WholeDegrees(v: Coord)
    ensures v % PerDegree == 0 <==> Abs(v) % PerDegree == 0
  {
    var q := v / PerDegree;
    var r := v % PerDegree;
    assert v == q * PerDegree + r;
    if v < 0 {
      if r == 0 {
        assert -v == (-q) * PerDegree;
      } else {
        assert -v == (-q - 1) * PerDegree + (PerDegree - r);
      }
    }
  }

  /** The source's field and the APRS field agree exactly on the angles that
      are non-negative or a whole number of degrees. */
  lemma {:induction false} AsWrittenAgreesIff(v: Coord, d: nat, pos: char, neg: char)
    requires d >= 1
    ensures FormatAxis(v, d, pos, neg) == FormatAxisAprs(v, d, pos, neg)
        <==> (v >= 0 || v % PerDegree == 0)
  {
    var mag := Abs(v);
    var p := PadLeft(NatToString(mag / PerDegree), d, '0');
    var f := FormatAxis(v, d, pos, neg);
    var g := FormatAxisAprs(v, d, pos, neg);
    AxisParts(v, d, pos, neg);
    WholeDegrees(v);
    if v < 0 && v % PerDegree != 0 {
      var neg_m := -(mag % PerDegree);
      NegativeMinutesShape(neg_m);
      assert f == p + FormatMinutes(neg_m) + [if v > -(PerDegree as int) then pos else neg];
      MinutesShape(mag % PerDegree);
      assert Pow10(2) == 100;
      DegreesShape(mag % PerDegree / 100, 2);
      assert f[|p|] == '-';
      assert g[|p|] == PadLeft(NatToString(mag % PerDegree / 100), 2, '0')[0];
      assert IsDigit(g[|p|]);
    } else if v < 0 {
      assert v <= -(PerDegree as int);
    }
  }

  /** The position pair as written equals the corrected pair exactly when
      each angle is non-negative or a whole number of degrees. */
  lemma CoordinatesAgreeIff(lat: Coord, lon: Coord)
    ensures FormatCoordinates(lat, lon) == FormatCoordinatesAprs(lat, lon)
        <==> (lat >= 0 || lat % PerDegree == 0) && (lon >= 0 || lon % PerDegree == 0)
  {
    AsWrittenAgreesIff(lat, 2, 'N', 'S');
    AsWrittenAgreesIff(lon, 3, 'E', 'W');
  }

  /** Thirty minutes, as the minutes field prints them. */
  lemma ThirtyMinutes()
    ensures FormatMinutes(3000) == "30.00"
  {
    assert NatToString(30) == NatToString(3) + [DigitChar(0)] == "30";
    assert TwoDigits(0) == "00";
  }

  /** Minus thirty minutes, as the minutes field prints them. */
  lemma MinusThirtyMinutes()
    ensures FormatMinutes(-3000) == "-30.00"
  {
    assert NatToString(30) == NatToString(3) + [DigitChar(0)] == "30";
    assert TwoDigits(0) == "00";
  }

  /** 34.5 degrees south as the source formats it. */
  lemma SouthernWrittenField()
    ensures FormatLatitude(-207000) == "34-30.00S"
  {
    MinusThirtyMinutes();
    assert NatToString(34) == NatToString(3) + [DigitChar(4)] == "34";
    assert IntDegrees(-207000) == -34;
  }

  /** 34.5 degrees south in the APRS form. */
  lemma SouthernAprsField()
    ensures FormatLatitudeAprs(-207000) == "3430.00S"
  {
    var v := -207000;
    assert Abs(v) / PerDegree == 34 && Abs(v) % PerDegree == 3000;
    ThirtyMinutes();
    assert NatToString(34) == NatToString(3) + [DigitChar(4)] == "34";
  }

  /** The discrepancy on a concrete input: 34.5 degrees south is sent as
      `34-30.00S`, which is not an APRS latitude, where `3430.00S` is meant. */
  lemma SouthernLatitudeMalformed()
    ensures FormatLatitude(-207000) == "34-30.00S"
    ensures ParseLatitude(FormatLatitude(-207000)) == None
    ensures FormatLatitudeAprs(-207000) == "3430.00S"
    ensures ParseLatitude(FormatLatitudeAprs(-207000)) == Some(-207000)
  {
    SouthernWrittenField();
    SouthernAprsField();
    assert !IsDigit("34-30.00S"[2..4][0]);
    LatitudeAprsRoundTrip(-207000);
  }
}

=== FILE: downloader.dfy ===
/** `VIIRSDownloader`: the geographic window filter of `process_csv` and the
    remove, download, process sequence of `run`, over a file system that maps
    paths to contents.

    The HTTP response, the CSV parser and the outcome of the file operations
    are inputs. Coordinates are `real`: the comparisons of the filter mask
    are all the model needs of them. */
module Downloader {
  import opened Wrappers

  /** One parsed row of the hotspot CSV: its `latitude` and `longitude`. */
  datatype Row = Row(latitude: real, longitude: real)

  /** The region of interest: `latitude1` is the northern bound,
      `latitude2` the southern, `longitude1` the western, `longitude2` the
      eastern. */
  datatype Window = Window(latitude1: real, latitude2: real, longitude1: real, longitude2: real)

  /** The `viirs` settings. */
  datatype ViirsConfig = ViirsConfig(url: string, filepath: string, window: Window)

  /** The four comparisons of the filter mask. */
  predicate InWindow(w: Window, r: Row) {
    && r.latitude <= w.latitude1
    && r.latitude >= w.latitude2
    && r.longitude >= w.longitude1
    && r.longitude <= w.longitude2
  }

  /** `df[mask]`: the rows inside the window, in their original order. */
  function FilterRows(rows: seq<Row>, w: Window): (kept: seq<Row>)
    ensures |kept| <= |rows|
    ensures forall i :: 0 <= i < |kept| ==> InWindow(w, kept[i])
    ensures forall i :: 0 <= i < |rows| && InWindow(w, rows[i]) ==> rows[i] in kept
  {
    if rows == [] then []
    else (if InWindow(w, rows[0]) then [rows[0]] else []) + FilterRows(rows[1..], w)
  }

  /** `a` is obtained from `b` by deleting elements, without reordering. */
  predicate IsSubsequence(a: seq<Row>, b: seq<Row>)
    decreases |b|
  {
    a == [] || (b != [] && ((a[0] == b[0] && IsSubsequence(a[1..], b[1..])) || IsSubsequence(a, b[1..])))
  }

  /** The filter keeps the order of the input and adds nothing to it. */
  lemma {:induction false} FilterIsSubsequence(rows: seq<Row>, w: Window)
    ensures IsSubsequence(FilterRows(rows, w), rows)
  {
    if rows != [] {
      var kept := FilterRows(rows, w);
      var rest := FilterRows(rows[1..], w);
      FilterIsSubsequence(rows[1..], w);
      if InWindow(w, rows[0]) {
        assert kept[0] == rows[0] && kept[1..] == rest;
      } else {
        assert kept == rest;
      }
    }
  }

  /** Each row occurs in the output exactly as often as in the input when it
      lies in the window, and not at all otherwise. */
  lemma {:induction false} FilterCounts(rows: seq<Row>, w: Window, r: Row)
    ensures multiset(FilterRows(rows, w))[r] == if InWindow(w, r) then multiset(rows)[r] else 0
  {
    if rows != [] {
      FilterCounts(rows[1..], w, r);
      var head := if InWindow(w, rows[0]) then [rows[0]] else [];
      assert multiset(FilterRows(rows, w)) == multiset(head) + multiset(FilterRows(rows[1..], w));
      assert rows == [rows[0]] + rows[1..];
      assert multiset(rows) == multiset([rows[0]]) + multiset(rows[1..]);
    }
  }

  /** Filtering the filtered rows changes nothing. */
  lemma {:induction false} FilterIdempotent(rows: seq<Row>, w: Window)
    ensures FilterRows(FilterRows(rows, w), w) == FilterRows(rows, w)
  {
    if rows != [] {
      var kept := FilterRows(rows, w);
      var rest := FilterRows(rows[1..], w);
      FilterIdempotent(rows[1..], w);
      if InWindow(w, rows[0]) {
        assert kept[0] == rows[0] && kept[1..] == rest;
        assert FilterRows(kept, w) == [rows[0]] + FilterRows(rest, w);
        assert kept == [rows[0]] + rest;
      } else {
        assert kept == rest;
      }
    }
  }

  /** The filter works row by row: filtering a concatenation concatenates
      the filtered parts. */
  lemma {:induction false} FilterConcat(a: seq<Row>, b: seq<Row>, w: Window)
    ensures FilterRows(a + b, w) == FilterRows(a, w) + FilterRows(b, w)
  {
    if a != [] {
      FilterConcat(a[1..], b, w);
      assert (a + b)[1..] == a[1..] + b;
    } else {
      assert a + b == b;
    }
  }

  /** A window whose southern bound lies north of its northern one, or whose
      western bound lies east of its eastern one, keeps nothing. */
  lemma EmptyWindowKeepsNothing(rows: seq<Row>, w: Window)
    requires w.latitude2 > w.latitude1 || w.longitude1 > w.longitude2
    ensures FilterRows(rows, w) == []
  {
  }

  /** What a path holds: downloaded bytes, or the JSON snapshot of filtered
      rows that `to_json` writes. */
  datatype FileData = Bytes(data: seq<bv8>) | Snapshot(rows: seq<Row>)

  /** `process_csv` always writes its snapshot here. */
  const SnapshotPath := "viirs.json"

  /** The file system the downloader works on. */
  class Disk {
    var files: map<string, FileData>

    constructor (files0: map<string, FileData>)
      ensures files == files0
    {
      files := files0;
    }
  }

  /** What `requests.get(url, stream=True)` gives: a failure before any byte
      is written (connection error or error status), or the chunks that
      `iter_content` yields, possibly cut off by an error after them. */
  datatype Response = RequestFailed | Streamed(chunks: seq<seq<bv8>>, interrupted: bool)

  /** The bytes of the chunks, in order. */
  function Flatten(chunks: seq<seq<bv8>>): seq<bv8> {
    if chunks == [] then [] else Flatten(chunks[..|chunks| - 1]) + chunks[|chunks| - 1]
  }

  datatype Step = RemoveStep | DownloadStep | ProcessStep

  /** `run` returns, or the exception of one step propagates out of it. */
  datatype RunOutcome = Finished | Failed(step: Step)

  /** `os.makedirs(os.path.dirname(path), exist_ok=True)` succeeds: the
      directory part of a path without `/` is the empty string, and
      `makedirs('')` raises FileNotFoundError whatever `exist_ok` says. */
  predicate MakedirsOk(path: string) {
    '/' in path
  }

  /** The environment of one `run`: whether `unlink` succeeds, the HTTP
      response, the CSV parser, and whether `to_json` succeeds. */
  datatype RunInputs = RunInputs(unlinkOk: bool, response: Response,
                                 parse: FileData -> Option<seq<Row>>, writeOk: bool)

  /** The effect of `run` on the file system, step by step. */
  function RunEffect(cfg: ViirsConfig, files: map<string, FileData>, env: RunInputs)
    : (r: (RunOutcome, map<string, FileData>))
    ensures r.0 == Finished ==> env.response.Streamed? && !env.response.interrupted && MakedirsOk(cfg.filepath)
                                && SnapshotPath in r.1 && r.1[SnapshotPath].Snapshot?
  {
    var path := cfg.filepath;
    if path in files && !env.unlinkOk then (Failed(RemoveStep), files)
    else
      var removed := files - {path};
      match env.response
      case RequestFailed => (Failed(DownloadStep), removed)
      case Streamed(chunks, interrupted) =>
        if !MakedirsOk(path) then (Failed(DownloadStep), removed)
        else
          var downloaded := removed[path := Bytes(Flatten(chunks))];
          if interrupted then (Failed(DownloadStep), downloaded)
          else
            match env.parse(Bytes(Flatten(chunks)))
            case None => (Failed(ProcessStep), downloaded)
            case Some(rows) =>
              if !env.writeOk then (Failed(ProcessStep), downloaded)
              else (Finished, downloaded[SnapshotPath := Snapshot(FilterRows(rows, cfg.window))])
  }

  /** A failing step stops `run`: the steps after it leave no trace, and a
      failed removal leaves the file system as it was. */
  lemma FailureStopsRun(cfg: ViirsConfig, files: map<string, FileData>, env: RunInputs)
    ensures var (outcome, after) := RunEffect(cfg, files, env);
      && (outcome == Failed(RemoveStep) <==> cfg.filepath in files && !env.unlinkOk)
      && (outcome == Failed(RemoveStep) ==> after == files)
      && (outcome.Failed? ==> after.Keys <= files.Keys + {cfg.filepath}
                              && (SnapshotPath != cfg.filepath && SnapshotPath in files ==> after[SnapshotPath] == files[SnapshotPath]))
      && (outcome.Failed? && SnapshotPath != cfg.filepath ==> (SnapshotPath in after <==> SnapshotPath in files))
  {
  }

  /** The old file is gone before the download starts: when the request
      fails, or the directory of the path cannot be made, nothing is left at
      the configured path, and otherwise the path holds exactly what was
      streamed. */
  lemma NoStaleDownload(cfg: ViirsConfig, files: map<string, FileData>, env: RunInputs)
    requires RunEffect(cfg, files, env).0 != Failed(RemoveStep)
    ensures env.response.RequestFailed? || !MakedirsOk(cfg.filepath) ==>
      cfg.filepath !in RunEffect(cfg, files, env).1
    ensures env.response.Streamed? && MakedirsOk(cfg.filepath) && cfg.filepath != SnapshotPath ==>
      RunEffect(cfg, files, env).1[cfg.filepath] == Bytes(Flatten(env.response.chunks))
  {
  }

  /** A bare file name (no directory part) never downloads: once the old
      file is removed the run stops at the download step, whatever the
      server answers, and no CSV is left behind. */
  lemma BareFileNameAborts(cfg: ViirsConfig, files: map<string, FileData>, env: RunInputs)
    requires '/' !in cfg.filepath
    requires cfg.filepath !in files || env.unlinkOk
    ensures RunEffect(cfg, files, env) == (Failed(DownloadStep), files - {cfg.filepath})
  {
  }

  /** A finished run leaves at `viirs.json` the rows of the downloaded file
      that lie in the window, whatever path the CSV was downloaded to. */
  lemma FinishedRunSnapshot(cfg: ViirsConfig, files: map<string, FileData>, env: RunInputs)
    requires RunEffect(cfg, files, env).0 == Finished
    ensures env.response.Streamed? && env.parse(Bytes(Flatten(env.response.chunks))).Some?
    ensures var rows := env.parse(Bytes(Flatten(env.response.chunks))).value;
      var kept := RunEffect(cfg, files, env).1[SnapshotPath].rows;
      && kept == FilterRows(rows, cfg.window)
      && (forall i :: 0 <= i < |kept| ==> InWindow(cfg.window, kept[i]))
      && IsSubsequence(kept, rows)
  {
    FilterIsSubsequence(env.parse(Bytes(Flatten(env.response.chunks))).value, cfg.window);
  }

  class VIIRSDownloader {
    const url: string
    const filePath: string
    const window: Window

    constructor (cfg: ViirsConfig)
      ensures url == cfg.url && filePath == cfg.filepath && window == cfg.window
    {
      url, filePath, window := cfg.url, cfg.filepath, cfg.window;
    }

    function Config(): ViirsConfig { ViirsConfig(url, filePath, window) }

    /** `remove_existing_file`: unlink the file if there is one; an OSError
        propagates. */
    method RemoveExistingFile(disk: Disk, unlinkOk: bool) returns (ok: bool)
      modifies disk
      ensures ok == (filePath !in old(disk.files) || unlinkOk)
      ensures ok ==> disk.files == old(disk.files) - {filePath}
      ensures !ok ==> disk.files == old(disk.files)
    {
      if filePath in disk.files {
        if !unlinkOk {
          return false;
        }
        disk.files := disk.files - {filePath};
      }
      ok := true;
    }

    /** `download_file`: make the directory of the path, open the path for
        writing, then write the chunks one after another; an error before
        the file is opened leaves the file system alone, one while streaming
        leaves what was written. */
    method DownloadFile(disk: Disk, response: Response) returns (ok: bool)
      modifies disk
      ensures response.RequestFailed? || !MakedirsOk(filePath) ==> !ok && disk.files == old(disk.files)
      ensures response.Streamed? && MakedirsOk(filePath) ==>
        ok == !response.interrupted
        && disk.files == old(disk.files)[filePath := Bytes(Flatten(response.chunks))]
    {
      if response.RequestFailed? || !MakedirsOk(filePath) {
        return false;
      }
      var chunks := response.chunks;
      var written: seq<bv8> := [];
      disk.files := disk.files[filePath := Bytes(written)];
      var i := 0;
      while i < |chunks|
        invariant 0 <= i <= |chunks|
        invariant written == Flatten(chunks[..i])
        invariant disk.files == old(disk.files)[filePath := Bytes(written)]
      {
        assert chunks[..i + 1][..i] == chunks[..i];
        written := written + chunks[i];
        disk.files := disk.files[filePath := Bytes(written)];
        i := i + 1;
      }
      assert chunks[..i] == chunks;
      ok := !response.interrupted;
    }

    /** `process_csv`: parse the downloaded file, keep the rows in the window
        and write them to `viirs.json`; a missing file, a parse error or a
        failed write propagates. */
    method ProcessCsv(disk: Disk, parse: FileData -> Option<seq<Row>>, writeOk: bool) returns (ok: bool)
      modifies disk
      ensures ok == (filePath in old(disk.files) && parse(old(disk.files)[filePath]).Some? && writeOk)
      ensures ok ==> disk.files == old(disk.files)[SnapshotPath :=
                       Snapshot(FilterRows(parse(old(disk.files)[filePath]).value, window))]
      ensures !ok ==> disk.files == old(disk.files)
    {
      if filePath !in disk.files {
        return false;
      }
      var parsed := parse(disk.files[filePath]);
      if parsed.None? {
        return false;
      }
      var filtered := FilterRows(parsed.value, window);
      if !writeOk {
        return false;
      }
      disk.files := disk.files[SnapshotPath := Snapshot(filtered)];
      ok := true;
    }

    /** `run`: remove, then download, then process; the first failure
        propagates and the later steps do not run. */
    method Run(disk: Disk, env: RunInputs) returns (outcome: RunOutcome)
      modifies disk
      ensures (outcome, disk.files) == RunEffect(Config(), old(disk.files), env)
    {
      var ok := RemoveExistingFile(disk, env.unlinkOk);
      if !ok {
        return Failed(RemoveStep);
      }
      ok := DownloadFile(disk, env.response);
      if !ok {
        return Failed(DownloadStep);
      }
      ok := ProcessCsv(disk, env.parse, env.writeOk);
      if !ok {
        return Failed(ProcessStep);
      }
      outcome := Finished;
    }
  }
}

=== FILE: main.dfy ===
/** `process_fire_data`: one cycle of download, load, enrichment and
    broadcast, and what it sends over the APRS connection.

    Everything the cycle reads from outside (the download, the connection,
    the geocoder, the AQI API, the news feed, each `sendall`) is an input
    gathered in `CycleEnv`. */
module FireProcessing {
  import opened Wrappers
  import opened Text
  import opened Coordinates
  import opened Aprs
  import opened News
  import opened Aqi
  import Downloader

  /** The per-section settings that `main` reads from the configuration. */
  datatype CycleSettings = CycleSettings(viirs: Downloader.ViirsConfig, aprs: AprsConfig,
                                         authtoken: string, newsLink: string, keyword: string)

  /** `enable_aqi` and `enable_news`. */
  datatype Options = Options(enableAqi: bool, enableNews: bool)

  /** The environment of one cycle:
      - `download`: what `VIIRSDownloader.run` meets;
      - `reachable`: whether the APRS connection is made;
      - `loadOk`: whether reading `viirs.json` back succeeds;
      - `toCoord`: a stored float as a fixed-point coordinate;
      - `geocode`, `respond`: the reverse geocoder and the AQI API;
      - `feed`: the RSS feed as fetched for the k-th broadcast record;
      - `show`: `str()` of an AQI temperature value;
      - `delivered`: whether the k-th `sendall` succeeds;
      - `closes`: whether `disconnect` succeeds. */
  datatype CycleEnv = CycleEnv(
    download: Downloader.RunInputs,
    reachable: bool,
    loadOk: bool,
    toCoord: real -> Coord,
    geocode: (Coord, Coord) -> GeoResult,
    respond: string -> HttpResponse,
    feed: nat -> FeedResult,
    show: Json -> string,
    delivered: nat -> bool,
    closes: bool)

  /** A record of `viirs.json` as `message.get` sees it. */
  datatype Record = Record(latitude: Option<Coord>, longitude: Option<Coord>)

  predicate Located(r: Record) {
    r.latitude.Some? && r.longitude.Some?
  }

  /** Reading `viirs.json` back: `None` when the read fails or the file is
      not a snapshot. */
  function LoadRecords(files: map<string, Downloader.FileData>, env: CycleEnv): (r: Option<seq<Record>>)
    ensures r.Some? ==> Downloader.SnapshotPath in files && files[Downloader.SnapshotPath].Snapshot?
                        && |r.value| == |files[Downloader.SnapshotPath].rows|
    ensures r.Some? ==> forall i :: 0 <= i < |r.value| ==> Located(r.value[i])
  {
    if !env.loadOk || Downloader.SnapshotPath !in files || !files[Downloader.SnapshotPath].Snapshot? then None
    else Some(ToRecords(files[Downloader.SnapshotPath].rows, env.toCoord))
  }

  /** The records `json.load` returns for a snapshot: one per row, in order,
      both coordinates present. */
  function ToRecords(rows: seq<Downloader.Row>, toCoord: real -> Coord): (records: seq<Record>)
    ensures |records| == |rows|
    ensures forall i :: 0 <= i < |rows| ==>
      records[i] == Record(Some(toCoord(rows[i].latitude)), Some(toCoord(rows[i].longitude)))
  {
    seq(|rows|, i requires 0 <= i < |rows| => Record(Some(toCoord(rows[i].latitude)), Some(toCoord(rows[i].longitude))))
  }

  /** The fetchers and the station a cycle works with. */
  datatype Context = Context(opts: Options, callsign: string, aqi: AqiFetcher, news: NewsFetcher, env: CycleEnv)

  function CycleContext(s: CycleSettings, opts: Options, env: CycleEnv): Context {
    Context(opts, s.aprs.callsign, AqiFetcher(s.authtoken), NewNewsFetcher(s.newsLink, s.keyword), env)
  }

  /** The AQI part of a record's message: absent when AQI is disabled, `N/A`
      when the lookup gives nothing, the shown temperature otherwise; an
      uncaught exception of the lookup propagates. */
  function AqiPart(ctx: Context, lat: Coord, lon: Coord): (r: Py<Option<string>>)
    ensures !ctx.opts.enableAqi ==> r == Returns(None)
    ensures ctx.opts.enableAqi ==>
      var t := GetAqiTemperature(ctx.aqi, ctx.env.geocode(lat, lon), ctx.env.respond).result;
      && (r.Raises? <==> t.Raises?)
      && (t == Returns(None) ==> r == Returns(Some("N/A")))
      && (t.Returns? && t.value.Some? ==> r == Returns(Some(ctx.env.show(t.value.value))))
  {
    if !ctx.opts.enableAqi then Returns(None)
    else
      match GetAqiTemperature(ctx.aqi, ctx.env.geocode(lat, lon), ctx.env.respond).result
      case Raises => Raises
      case Returns(None) => Returns(Some("N/A"))
      case Returns(Some(v)) => Returns(Some(ctx.env.show(v)))
  }

  /** The news part: absent when news is disabled, else whatever
      `find_news_link` returns, the `No link found` sentinel included. */
  function NewsPart(ctx: Context, k: nat): (r: Option<string>)
    ensures r.Some? <==> ctx.opts.enableNews
  {
    if ctx.opts.enableNews then Some(NewsLink(ctx.news.keyword, ctx.env.feed(k))) else None
  }

  const DegreeSign: string := "\U{00B0}"

  /** The message body: the parts present, joined by `", "`, or
      `Fire detected` when there are none. */
  function ComposeBody(aqi: Option<string>, news: Option<string>): (body: string)
    ensures aqi.None? && news.None? ==> body == "Fire detected"
    ensures aqi.Some? && news.None? ==> body == "AQI Temp: " + aqi.value + DegreeSign + "C"
    ensures aqi.None? && news.Some? ==> body == "News: " + news.value
    ensures aqi.Some? && news.Some? ==>
      body == ("AQI Temp: " + aqi.value + DegreeSign + "C") + ", " + ("News: " + news.value)
  {
    var parts := (if aqi.Some? then ["AQI Temp: " + aqi.value + DegreeSign + "C"] else [])
               + (if news.Some? then ["News: " + news.value] else []);
    assert |parts| == 2 ==> parts[1..] == [parts[1]] && Join(parts, ", ") == parts[0] + ", " + parts[1];
    Join(if parts == [] then ["Fire detected"] else parts, ", ")
  }

  /** `Fire detected` is sent exactly when neither part is present. */
  lemma FallbackOnlyWhenEmpty(aqi: Option<string>, news: Option<string>)
    ensures ComposeBody(aqi, news) == "Fire detected" <==> aqi.None? && news.None?
  {
    var body := ComposeBody(aqi, news);
    if aqi.Some? {
      assert body[0] == 'A';
    } else if news.Some? {
      assert body[0] == 'N';
    }
  }

  /** The body for the k-th broadcast record at (lat, lon). */
  function BodyFor(ctx: Context, k: nat, lat: Coord, lon: Coord): (r: Py<string>)
    ensures r.Raises? ==> ctx.opts.enableAqi
  {
    match AqiPart(ctx, lat, lon)
    case Raises => Raises
    case Returns(aqi) => Returns(ComposeBody(aqi, NewsPart(ctx, k)))
  }

  /** What the loop of `process_fire_data` needs from its context: the
      body composed for the k-th handled record at a position (or the
      exception its lookups raise), whether the k-th `sendall` succeeds, and
      the packet line for a suffix, a position and a body. */
  datatype Loop = Loop(body: (nat, Coord, Coord) -> Py<string>, delivered: nat -> bool,
                       packet: (nat, Coord, Coord, string) -> string)

  /** The loop of a context: bodies from `BodyFor`, packets from `Packet`
      with the station's callsign and the APRS position fields. */
  function LoopOf(ctx: Context): Loop {
    Loop((k: nat, lat: Coord, lon: Coord) => BodyFor(ctx, k, lat, lon), ctx.env.delivered,
         (suffix: nat, lat: Coord, lon: Coord, body: string) =>
           Packet(ctx.callsign, suffix, FormatLatitudeAprs(lat), FormatLongitudeAprs(lon), body))
  }

  /** The sender's trace and counter during the loop; `handled` counts the
      records that reached `send_message`. */
  datatype Progress = Progress(wire: seq<Event>, suffix: nat, handled: nat, crashed: bool)

  /** One iteration of the loop: skip a record without coordinates, stop on
      an uncaught exception, else send (the suffix moves only when the line
      was delivered). */
  function Advance(loop: Loop, p: Progress, r: Record): Progress {
    if p.crashed || !Located(r) then p
    else
      var lat, lon := r.latitude.value, r.longitude.value;
      match loop.body(p.handled, lat, lon)
      case Raises => p.(crashed := true)
      case Returns(body) =>
        if loop.delivered(p.handled) then
          Progress(p.wire + [Sent(loop.packet(p.suffix, lat, lon, body))],
                   p.suffix + 1, p.handled + 1, false)
        else p.(handled := p.handled + 1)
  }

  /** The loop over `records`, from a freshly connected sender. */
  function Cycle(loop: Loop, records: seq<Record>): (p: Progress)
    ensures p.suffix == FirstSuffix + |p.wire|
    ensures forall i :: 0 <= i < |p.wire| ==> p.wire[i].Sent?
    ensures |p.wire| <= p.handled <= |records|
  {
    if records == [] then Progress([], FirstSuffix, 0, false)
    else Advance(loop, Cycle(loop, records[..|records| - 1]), records[|records| - 1])
  }

  /** A loop whose bodies never raise never crashes. */
  lemma {:induction false} NoRaiseNoCrash(loop: Loop, records: seq<Record>)
    requires forall k: nat, lat: Coord, lon: Coord :: loop.body(k, lat, lon).Returns?
    ensures !Cycle(loop, records).crashed
  {
    if records != [] {
      NoRaiseNoCrash(loop, records[..|records| - 1]);
    }
  }

  /** Only an AQI lookup raises, so a cycle with AQI disabled never crashes. */
  lemma CrashNeedsAqi(ctx: Context, records: seq<Record>)
    requires Cycle(LoopOf(ctx), records).crashed
    ensures ctx.opts.enableAqi
  {
    if !ctx.opts.enableAqi {
      NoRaiseNoCrash(LoopOf(ctx), records);
    }
  }

  /** The loop over the first i + 1 records is one step after the loop
      over the first i. */
  lemma CycleSnoc(loop: Loop, records: seq<Record>, i: nat)
    requires i < |records|
    ensures Cycle(loop, records[..i + 1]) == Advance(loop, Cycle(loop, records[..i]), records[i])
  {
    assert records[..i + 1][..i] == records[..i];
  }

  /** Once the loop has crashed, later records change nothing. */
  lemma {:induction false} CrashIsFinal(loop: Loop, a: seq<Record>, b: seq<Record>)
    requires Cycle(loop, a).crashed
    ensures Cycle(loop, a + b) == Cycle(loop, a)
  {
    if b == [] {
      assert a + b == a;
    } else {
      var ab := a + b;
      assert ab[..|ab| - 1] == a + b[..|b| - 1];
      CrashIsFinal(loop, a, b[..|b| - 1]);
      var p := Cycle(loop, a + b[..|b| - 1]);
      assert p == Cycle(loop, a) && p.crashed;
      assert Cycle(loop, ab) == Advance(loop, p, ab[|ab| - 1]);
      assert Advance(loop, p, ab[|ab| - 1]) == p;
    }
  }

  /** A record without coordinates leaves no trace: the cycle is as if it
      were not in the file. */
  lemma {:induction false} SkippedRecordInvisible(loop: Loop, a: seq<Record>, skip: Record, b: seq<Record>)
    requires !Located(skip)
    ensures Cycle(loop, a + [skip] + b) == Cycle(loop, a + b)
  {
    if b == [] {
      assert a + [skip] + b == a + [skip];
      assert (a + [skip])[..|a|] == a;
      assert a + b == a;
    } else {
      var left := a + [skip] + b;
      var right := a + b;
      assert left[..|left| - 1] == a + [skip] + b[..|b| - 1];
      assert right[..|right| - 1] == a + b[..|b| - 1];
      SkippedRecordInvisible(loop, a, skip, b[..|b| - 1]);
    }
  }

  /** The k-th handled record goes out unchanged: it is located, its
      lookups do not raise and its `sendall` succeeds. */
  predicate Broadcastable(loop: Loop, k: nat, r: Record) {
    Located(r) && loop.delivered(k) && loop.body(k, r.latitude.value, r.longitude.value).Returns?
  }

  /** The line sent for the k-th handled record: suffix 11 + k. */
  function HotspotLine(loop: Loop, k: nat, r: Record): Event
    requires Broadcastable(loop, k, r)
  {
    var lat, lon := r.latitude.value, r.longitude.value;
    Sent(loop.packet(FirstSuffix + k, lat, lon, loop.body(k, lat, lon).value))
  }

  /** The lines a fully delivered prefix puts on the wire, one per record. */
  function Lines(loop: Loop, records: seq<Record>): (w: seq<Event>)
    requires forall k :: 0 <= k < |records| ==> Broadcastable(loop, k, records[k])
    ensures |w| == |records|
  {
    seq(|records|, k requires 0 <= k < |records| => HotspotLine(loop, k, records[k]))
  }

  /** Delivering one more record appends its line to the earlier ones. */
  lemma LinesSnoc(loop: Loop, records: seq<Record>)
    requires forall k :: 0 <= k < |records| ==> Broadcastable(loop, k, records[k])
    requires records != []
    ensures Lines(loop, records) == Lines(loop, records[..|records| - 1]) + [HotspotLine(loop, |records| - 1, records[|records| - 1])]
  {
    var n := |records| - 1;
    var prefix := records[..n];
    var a, b := Lines(loop, records), Lines(loop, prefix) + [HotspotLine(loop, n, records[n])];
    forall k | 0 <= k < |records|
      ensures a[k] == b[k]
    {
      if k < n {
        assert prefix[k] == records[k];
      }
    }
  }

  /** When every record goes out, the cycle state is the delivered lines. */
  lemma {:induction false} CycleDelivers(loop: Loop, records: seq<Record>)
    requires forall k :: 0 <= k < |records| ==> Broadcastable(loop, k, records[k])
    ensures Cycle(loop, records) == Progress(Lines(loop, records), FirstSuffix + |records|, |records|, false)
  {
    if records != [] {
      var n := |records| - 1;
      var prefix := records[..n];
      assert forall k :: 0 <= k < n ==> prefix[k] == records[k];
      CycleDelivers(loop, prefix);
      assert Broadcastable(loop, n, records[n]);
      AdvanceDelivers(loop, Cycle(loop, prefix), records[n]);
      LinesSnoc(loop, records);
    }
  }

  /** When every record goes out unchanged, one line per record is sent,
      in file order, with suffixes 11, 12, ... */
  lemma AllDelivered(loop: Loop, records: seq<Record>)
    requires forall k :: 0 <= k < |records| ==> Broadcastable(loop, k, records[k])
    ensures !Cycle(loop, records).crashed && Cycle(loop, records).handled == |records|
    ensures |Cycle(loop, records).wire| == |records|
    ensures forall k :: 0 <= k < |records| ==> Cycle(loop, records).wire[k] == HotspotLine(loop, k, records[k])
  {
    CycleDelivers(loop, records);
  }

  /** How many of the first n handled records had their `sendall` succeed. */
  function DeliveredCount(delivered: nat -> bool, n: nat): nat {
    if n == 0 then 0 else DeliveredCount(delivered, n - 1) + (if delivered(n - 1) then 1 else 0)
  }

  /** `e` is a packet line carrying station suffix `suffix`. */
  ghost predicate CarriesSuffix(loop: Loop, e: Event, suffix: nat) {
    exists lat: Coord, lon: Coord, body: string :: e == PacketLine(loop, suffix, lat, lon, body)
  }

  function PacketLine(loop: Loop, suffix: nat, lat: Coord, lon: Coord, body: string): Event {
    Sent(loop.packet(suffix, lat, lon, body))
  }

  /** Whatever fails along the way, the wire holds one line per successful
      `sendall` and nothing else, and the i-th line carries suffix 11 + i:
      a failed send leaves no gap in the suffixes. */
  lemma {:induction false} PartialDelivery(loop: Loop, records: seq<Record>)
    ensures var p := Cycle(loop, records);
      && |p.wire| == DeliveredCount(loop.delivered, p.handled)
      && forall i :: 0 <= i < |p.wire| ==> CarriesSuffix(loop, p.wire[i], FirstSuffix + i)
  {
    if records != [] {
      var r := records[|records| - 1];
      var prefix := records[..|records| - 1];
      PartialDelivery(loop, prefix);
      var q := Cycle(loop, prefix);
      var p := Cycle(loop, records);
      assert p == Advance(loop, q, r);
      if !q.crashed && Located(r) && loop.body(q.handled, r.latitude.value, r.longitude.value).Returns? {
        var lat, lon := r.latitude.value, r.longitude.value;
        var body := loop.body(q.handled, lat, lon).value;
        if loop.delivered(q.handled) {
          var line := PacketLine(loop, q.suffix, lat, lon, body);
          assert p.wire == q.wire + [line];
          assert CarriesSuffix(loop, line, FirstSuffix + |q.wire|);
          forall i | 0 <= i < |p.wire|
            ensures CarriesSuffix(loop, p.wire[i], FirstSuffix + i)
          {
            if i < |q.wire| {
              assert p.wire[i] == q.wire[i];
            }
          }
        }
      }
    }
  }

  /** One located, delivered record appends its line and moves the suffix. */
  lemma AdvanceDelivers(loop: Loop, p: Progress, r: Record)
    requires !p.crashed && Broadcastable(loop, p.handled, r) && p.suffix == FirstSuffix + p.handled
    ensures Advance(loop, p, r) == Progress(p.wire + [HotspotLine(loop, p.handled, r)], p.suffix + 1, p.handled + 1, false)
  {
  }

  /** The outcome of one call of `process_fire_data`. */
  datatype CycleOutcome = DownloadFailed(step: Downloader.Step) | ConnectFailed | LoadFailed | NoFires | Processed | Crashed

  /** The outcome and everything the cycle did on the APRS connection. */
  datatype Report = Report(outcome: CycleOutcome, wire: seq<Event>)

  /** `process_fire_data`, specified step by step. */
  function CycleReport(s: CycleSettings, opts: Options, files: map<string, Downloader.FileData>, env: CycleEnv)
    : Report
  {
    var (run, after) := Downloader.RunEffect(s.viirs, files, env.download);
    if run.Failed? then Report(DownloadFailed(run.step), [])
    else if !env.reachable then Report(ConnectFailed, [])
    else
      match LoadRecords(after, env)
      case None => Report(LoadFailed, [DisconnectCalled])
      case Some(records) => LoadedReport(s, opts, env, records)
  }

  /** The rest of the cycle once `viirs.json` has given `records`. */
  function LoadedReport(s: CycleSettings, opts: Options, env: CycleEnv, records: seq<Record>): Report {
    if records == [] then
      Report(NoFires, (if env.delivered(0) then [Sent(NoFirePacket(s.aprs.callsign, FirstSuffix))] else [])
                      + [DisconnectCalled])
    else
      var p := Cycle(LoopOf(CycleContext(s, opts, env)), records);
      if p.crashed then Report(Crashed, p.wire) else Report(Processed, p.wire + [DisconnectCalled])
  }

  lemma {:induction false} SendsHaveNoDisconnect(wire: seq<Event>)
    requires forall i :: 0 <= i < |wire| ==> wire[i].Sent?
    ensures Disconnects(wire) == 0
  {
    if wire != [] {
      SendsHaveNoDisconnect(wire[..|wire| - 1]);
    }
  }

  lemma DisconnectAppended(wire: seq<Event>)
    ensures Disconnects(wire + [DisconnectCalled]) == Disconnects(wire) + 1
  {
    assert (wire + [DisconnectCalled])[..|wire|] == wire;
  }

  /** A cycle that fails before connecting sends nothing. */
  lemma FailedBeforeConnect(s: CycleSettings, opts: Options, files: map<string, Downloader.FileData>, env: CycleEnv)
    requires CycleReport(s, opts, files, env).outcome.DownloadFailed?
             || CycleReport(s, opts, files, env).outcome.ConnectFailed?
    ensures CycleReport(s, opts, files, env).wire == []
    ensures CycleReport(s, opts, files, env).outcome.DownloadFailed? <==>
            Downloader.RunEffect(s.viirs, files, env.download).0.Failed?
  {
  }

  /** After loading, a cycle that does not crash ends with exactly one
      `disconnect`, as its last action. */
  lemma LoadedDisconnectOnce(s: CycleSettings, opts: Options, env: CycleEnv, records: seq<Record>)
    requires !LoadedReport(s, opts, env, records).outcome.Crashed?
    ensures var w := LoadedReport(s, opts, env, records).wire;
      w != [] && w[|w| - 1] == DisconnectCalled && Disconnects(w) == 1
  {
    var sends: seq<Event>;
    if records == [] {
      sends := if env.delivered(0) then [Sent(NoFirePacket(s.aprs.callsign, FirstSuffix))] else [];
    } else {
      sends := Cycle(LoopOf(CycleContext(s, opts, env)), records).wire;
    }
    assert LoadedReport(s, opts, env, records).wire == sends + [DisconnectCalled];
    SendsHaveNoDisconnect(sends);
    DisconnectAppended(sends);
  }

  /** Every cycle that connects and does not crash ends with exactly one
      `disconnect`, as its last action. */
  lemma DisconnectOnceAtEnd(s: CycleSettings, opts: Options, files: map<string, Downloader.FileData>, env: CycleEnv)
    requires var o := CycleReport(s, opts, files, env).outcome; o.LoadFailed? || o.NoFires? || o.Processed?
    ensures var w := CycleReport(s, opts, files, env).wire;
      w != [] && w[|w| - 1] == DisconnectCalled && Disconnects(w) == 1
  {
    var after := Downloader.RunEffect(s.viirs, files, env.download).1;
    var loaded := LoadRecords(after, env);
    if loaded.None? {
      DisconnectAppended([]);
    } else {
      LoadedDisconnectOnce(s, opts, env, loaded.value);
    }
  }

  /** A crash, which only a lookup with AQI enabled can cause, leaves the
      connection open: no `disconnect` is called. */
  lemma CrashLeavesConnectionOpen(s: CycleSettings, opts: Options, files: map<string, Downloader.FileData>, env: CycleEnv)
    requires CycleReport(s, opts, files, env).outcome.Crashed?
    ensures Disconnects(CycleReport(s, opts, files, env).wire) == 0
    ensures opts.enableAqi
  {
    var after := Downloader.RunEffect(s.viirs, files, env.download).1;
    var p := Cycle(LoopOf(CycleContext(s, opts, env)), LoadRecords(after, env).value);
    SendsHaveNoDisconnect(p.wire);
    CrashNeedsAqi(CycleContext(s, opts, env), LoadRecords(after, env).value);
  }

  /** An AQI answer that `fetch_aqi` reads without an uncaught exception. */
  predicate ReadableAnswer(r: HttpResponse) {
    r.Received? && r.body.Some? ==> WellShaped(r.body.value)
  }

  lemma ReadableAnswersNeverRaise(ctx: Context, k: nat, lat: Coord, lon: Coord)
    requires forall url :: ReadableAnswer(ctx.env.respond(url))
    ensures BodyFor(ctx, k, lat, lon).Returns?
  {
    var geo := ctx.env.geocode(lat, lon);
    if ctx.opts.enableAqi && GetLocationName(geo).Some? {
      assert ReadableAnswer(ctx.env.respond(AqiUrl(GetLocationName(geo).value, ctx.aqi.authtoken)));
    }
  }

  /** With nothing in the window, the cycle sends only the no-fire packet
      (when delivered) and disconnects. */
  lemma NothingInWindow(s: CycleSettings, opts: Options, files: map<string, Downloader.FileData>, env: CycleEnv)
    requires Downloader.RunEffect(s.viirs, files, env.download).0 == Downloader.Finished
    requires env.reachable && env.loadOk
    requires Downloader.RunEffect(s.viirs, files, env.download).1[Downloader.SnapshotPath].rows == []
    ensures CycleReport(s, opts, files, env).outcome == NoFires
    ensures env.delivered(0) ==>
      CycleReport(s, opts, files, env).wire == [Sent(NoFirePacket(s.aprs.callsign, FirstSuffix)), DisconnectCalled]
  {
  }

  /** Once the records are loaded, with readable AQI answers and every
      `sendall` succeeding: the no-fire packet goes out when there are no
      records, and otherwise each record is sent once, in order, with
      suffixes from 11; the connection is closed last. */
  lemma LoadedAllBroadcast(s: CycleSettings, opts: Options, env: CycleEnv, records: seq<Record>)
    requires forall i :: 0 <= i < |records| ==> Located(records[i])
    requires forall url :: ReadableAnswer(env.respond(url))
    requires forall k: nat :: env.delivered(k)
    ensures var r := LoadedReport(s, opts, env, records);
      var loop := LoopOf(CycleContext(s, opts, env));
      && (records == [] ==> r == Report(NoFires, [Sent(NoFirePacket(s.aprs.callsign, FirstSuffix)), DisconnectCalled]))
      && (records != [] ==>
            && r.outcome == Processed
            && |r.wire| == |records| + 1 && r.wire[|records|] == DisconnectCalled
            && forall k :: 0 <= k < |records| ==>
                 Broadcastable(loop, k, records[k]) && r.wire[k] == HotspotLine(loop, k, records[k]))
  {
    var ctx := CycleContext(s, opts, env);
    forall k | 0 <= k < |records|
      ensures Broadcastable(LoopOf(ctx), k, records[k])
    {
      ReadableAnswersNeverRaise(ctx, k, records[k].latitude.value, records[k].longitude.value);
    }
    AllDelivered(LoopOf(ctx), records);
  }

  /** The cycle end to end: after a finished download, with the connection
      up and `viirs.json` readable, the report is the one for the records of
      the snapshot, one per row; `LoadedAllBroadcast` then says what is sent. */
  lemma EveryHotspotBroadcast(s: CycleSettings, opts: Options, files: map<string, Downloader.FileData>, env: CycleEnv)
    requires Downloader.RunEffect(s.viirs, files, env.download).0 == Downloader.Finished
    requires env.reachable && env.loadOk
    ensures var after := Downloader.RunEffect(s.viirs, files, env.download).1;
      && Downloader.SnapshotPath in after && after[Downloader.SnapshotPath].Snapshot?
      && CycleReport(s, opts, files, env)
         == LoadedReport(s, opts, env, ToRecords(after[Downloader.SnapshotPath].rows, env.toCoord))
  {
  }

  /** One pass of the loop of `process_fire_data` over record `r`, the
      `handled`-th to reach this point: skip it when a coordinate is
      missing, otherwise look up the AQI and the news link as enabled,
      compose the body and send it. `crashed` reports an uncaught exception
      of the AQI lookup. */
  method HandleRecord(sender: AprsSender, ctx: Context, r: Record, handled: nat) returns (next: nat, crashed: bool)
    requires sender.callsign == ctx.callsign
    modifies sender
    ensures Progress(sender.wire, sender.suffix, next, crashed)
            == Advance(LoopOf(ctx), Progress(old(sender.wire), old(sender.suffix), handled, false), r)
    ensures sender.connected == old(sender.connected)
  {
    if r.latitude.None? || r.longitude.None? {
      return handled, false;
    }
    var lat, lon := r.latitude.value, r.longitude.value;
    var aqi: Option<string> := None;
    if ctx.opts.enableAqi {
      var lookup := GetAqiTemperature(ctx.aqi, ctx.env.geocode(lat, lon), ctx.env.respond);
      if lookup.result.Raises? {
        return handled, true;
      }
      aqi := Some(if lookup.result.value.None? then "N/A" else ctx.env.show(lookup.result.value.value));
    }
    var news: Option<string> := None;
    if ctx.opts.enableNews {
      var link := FindNewsLink(ctx.news, ctx.env.feed(handled));
      news := Some(link);
    }
    var body := ComposeBody(aqi, news);
    sender.SendMessage(lat, lon, body, ctx.env.delivered(handled));
    return handled + 1, false;
  }

  /** The loop of `process_fire_data` over the loaded records, from a
      freshly connected sender; `crashed` reports the uncaught exception
      that ends it early. */
  method SendRecords(sender: AprsSender, ctx: Context, records: seq<Record>) returns (crashed: bool)
    requires sender.callsign == ctx.callsign && sender.wire == [] && sender.suffix == FirstSuffix
    modifies sender
    ensures var p := Cycle(LoopOf(ctx), records);
      crashed == p.crashed && sender.wire == p.wire && sender.suffix == p.suffix
    ensures sender.connected == old(sender.connected)
  {
    ghost var loop := LoopOf(ctx);
    var i := 0;
    var handled := 0;
    while i < |records|
      invariant 0 <= i <= |records|
      invariant Cycle(loop, records[..i]) == Progress(sender.wire, sender.suffix, handled, false)
      invariant sender.connected == old(sender.connected)
    {
      CycleSnoc(loop, records, i);
      handled, crashed := HandleRecord(sender, ctx, records[i], handled);
      if crashed {
        CrashIsFinal(loop, records[..i + 1], records[i + 1..]);
        assert records[..i + 1] + records[i + 1..] == records;
        return;
      }
      i := i + 1;
    }
    assert records[..i] == records;
    crashed := false;
  }

  /** `process_fire_data`: run the downloader, build the fetchers, connect,
      load `viirs.json`, then send the no-fire packet or one packet per
      located record, and disconnect. An uncaught exception ends the cycle
      where it is raised. */
  method ProcessFireData(disk: Downloader.Disk, s: CycleSettings, opts: Options, env: CycleEnv)
    returns (report: Report)
    modifies disk
    ensures disk.files == Downloader.RunEffect(s.viirs, old(disk.files), env.download).1
    ensures report == CycleReport(s, opts, old(disk.files), env)
  {
    var downloader := new Downloader.VIIRSDownloader(s.viirs);
    var run := downloader.Run(disk, env.download);
    if run.Failed? {
      return Report(DownloadFailed(run.step), []);
    }
    var aqiFetcher := AqiFetcher(s.authtoken);
    var newsFetcher := NewNewsFetcher(s.newsLink, s.keyword);
    var sender := AprsSender.Open(s.aprs, env.reachable);
    if sender == null {
      return Report(ConnectFailed, []);
    }
    var loaded := LoadRecords(disk.files, env);
    if loaded.None? {
      sender.Disconnect(env.closes);
      return Report(LoadFailed, sender.wire);
    }
    var records := loaded.value;
    if records == [] {
      sender.SendNoFireMessage(env.delivered(0));
      sender.Disconnect(env.closes);
      return Report(NoFires, sender.wire);
    }
    var ctx := Context(opts, s.aprs.callsign, aqiFetcher, newsFetcher, env);
    var crashed := SendRecords(sender, ctx, records);
    if crashed {
      return Report(Crashed, sender.wire);
    }
    sender.Disconnect(env.closes);
    return Report(Processed, sender.wire);
  }
}

=== FILE: news_fetcher.dfy ===
/** `NewsFetcher`: the first feed entry whose title mentions the keyword.

    Fetching and parsing the RSS feed is an input (`FeedResult`); the
    matcher itself is a search over the parsed entries in feed order. */
module News {
  import opened Wrappers
  import opened Text

  /** The sentinel returned whenever no link is found. */
  const NoLinkFound := "No link found"

  /** A feed entry: its `title` and `link` keys, each possibly absent. */
  datatype Entry = Entry(title: Option<string>, link: Option<string>)

  /** What `fetch_feed` returns: nothing when fetching or parsing raised,
      otherwise the parsed feed, which may lack an `entries` key. */
  datatype FeedResult = FetchFailed | Parsed(entries: Option<seq<Entry>>)

  datatype NewsFetcher = NewsFetcher(rssUrl: string, keyword: string)

  /** `NewsFetcher(rss_url, keyword)`: the keyword is lower-cased once, here. */
  function NewNewsFetcher(rssUrl: string, keyword: string): (f: NewsFetcher)
    ensures f.rssUrl == rssUrl && |f.keyword| == |keyword|
    ensures Lower(f.keyword) == f.keyword
    ensures forall i :: 0 <= i < |keyword| ==> f.keyword[i] == LowerChar(keyword[i])
  {
    NewsFetcher(rssUrl, Lower(keyword))
  }

  /** `keyword in entry.get('title', '').lower()`. */
  predicate Matches(keyword: string, e: Entry) {
    Contains(Lower(e.title.GetOr("")), keyword)
  }

  /** The position of the first entry that matches, in feed order. */
  function FirstMatch(keyword: string, entries: seq<Entry>): (r: Option<nat>)
    ensures r.Some? ==> r.value < |entries| && Matches(keyword, entries[r.value])
    ensures r.Some? ==> forall j :: 0 <= j < r.value ==> !Matches(keyword, entries[j])
    ensures r.None? ==> forall j :: 0 <= j < |entries| ==> !Matches(keyword, entries[j])
  {
    if entries == [] then None
    else if Matches(keyword, entries[0]) then Some(0)
    else match FirstMatch(keyword, entries[1..])
      case None => None
      case Some(k) => Some(k + 1)
  }

  /** The link `find_news_link` returns for a keyword and a fetched feed. */
  function NewsLink(keyword: string, feed: FeedResult): string {
    match feed
    case FetchFailed => NoLinkFound
    case Parsed(None) => NoLinkFound
    case Parsed(Some(entries)) =>
      match FirstMatch(keyword, entries)
      case None => NoLinkFound
      case Some(i) => entries[i].link.GetOr(NoLinkFound)
  }

  /** `find_news_link`: scan the entries in order and return the link of the
      first whose lower-cased title contains the keyword; a missing link at
      that entry gives the sentinel and ends the search. */
  method FindNewsLink(fetcher: NewsFetcher, feed: FeedResult) returns (link: string)
    ensures link == NewsLink(fetcher.keyword, feed)
  {
    if feed.FetchFailed? || feed.entries.None? {
      return NoLinkFound;
    }
    var entries := feed.entries.value;
    var i := 0;
    while i < |entries|
      invariant 0 <= i <= |entries|
      invariant forall j :: 0 <= j < i ==> !Matches(fetcher.keyword, entries[j])
    {
      var title := Lower(entries[i].title.GetOr(""));
      if Contains(title, fetcher.keyword) {
        return entries[i].link.GetOr(NoLinkFound);
      }
      i := i + 1;
    }
    return NoLinkFound;
  }

  /** The result is the sentinel, or the link of an entry that matches while
      no earlier entry does; and conversely the first matching entry's link,
      when it has one, is the result. */
  lemma {:induction false} NewsLinkIsFirstMatch(keyword: string, entries: seq<Entry>)
    ensures var link := NewsLink(keyword, Parsed(Some(entries)));
      link == NoLinkFound
      || exists i :: 0 <= i < |entries| && Matches(keyword, entries[i]) && entries[i].link == Some(link)
                     && forall j :: 0 <= j < i ==> !Matches(keyword, entries[j])
    ensures forall i :: 0 <= i < |entries| && Matches(keyword, entries[i]) && entries[i].link.Some?
                        && (forall j :: 0 <= j < i ==> !Matches(keyword, entries[j])) ==>
              NewsLink(keyword, Parsed(Some(entries))) == entries[i].link.value
  {
    var r := FirstMatch(keyword, entries);
    if r.Some? && entries[r.value].link.Some? {
      var i := r.value;
      assert Matches(keyword, entries[i]) && entries[i].link == Some(NewsLink(keyword, Parsed(Some(entries))));
    }
  }

  /** Entries after the first match are never looked at: appending entries
      to a feed that already has a match changes nothing, whether or not
      the matching entry has a link. */
  lemma {:induction false} LaterEntriesIgnored(keyword: string, a: seq<Entry>, b: seq<Entry>)
    requires FirstMatch(keyword, a).Some?
    ensures FirstMatch(keyword, a + b) == FirstMatch(keyword, a)
    ensures NewsLink(keyword, Parsed(Some(a + b))) == NewsLink(keyword, Parsed(Some(a)))
  {
    assert a != [];
    if !Matches(keyword, a[0]) {
      assert (a + b)[1..] == a[1..] + b;
      LaterEntriesIgnored(keyword, a[1..], b);
    }
  }

  /** With no matching entry, the sentinel is returned. */
  lemma NoMatchNoLink(keyword: string, entries: seq<Entry>)
    requires forall j :: 0 <= j < |entries| ==> !Matches(keyword, entries[j])
    ensures NewsLink(keyword, Parsed(Some(entries))) == NoLinkFound
  {
  }

  /** The empty keyword matches the first entry, titled or not. */
  lemma EmptyKeywordFirstEntry(entries: seq<Entry>)
    requires entries != []
    ensures NewsLink("", Parsed(Some(entries))) == entries[0].link.GetOr(NoLinkFound)
  {
    EmptyContained(Lower(entries[0].title.GetOr("")));
  }

  /** Two entries that differ only in the case of their titles. */
  predicate SameUpToCase(e1: Entry, e2: Entry) {
    Lower(e1.title.GetOr("")) == Lower(e2.title.GetOr("")) && e1.link == e2.link
  }

  /** Matching ignores case: feeds whose titles differ only in case, read
      with keywords that differ only in case, give the same link. */
  lemma {:induction false} CaseInsensitive(url: string, k1: string, k2: string, f1: seq<Entry>, f2: seq<Entry>)
    requires Lower(k1) == Lower(k2) && |f1| == |f2|
    requires forall i :: 0 <= i < |f1| ==> SameUpToCase(f1[i], f2[i])
    ensures NewsLink(NewNewsFetcher(url, k1).keyword, Parsed(Some(f1)))
         == NewsLink(NewNewsFetcher(url, k2).keyword, Parsed(Some(f2)))
  {
    SameFirstMatch(Lower(k1), f1, f2);
  }

  lemma {:induction false} SameFirstMatch(keyword: string, f1: seq<Entry>, f2: seq<Entry>)
    requires |f1| == |f2|
    requires forall i :: 0 <= i < |f1| ==> SameUpToCase(f1[i], f2[i])
    ensures FirstMatch(keyword, f1) == FirstMatch(keyword, f2)
  {
    if f1 != [] {
      assert SameUpToCase(f1[0], f2[0]);
      SameFirstMatch(keyword, f1[1..], f2[1..]);
    }
  }
}

=== FILE: text.dfy ===
/** Character and string helpers: decimal rendering in the manner of Python's
    `str(int)` and `%0Nd`, ASCII lower-casing, substring search and splitting. */
module Text {

  predicate IsDigit(c: char) { '0' <= c <= '9' }

  predicate AllDigits(s: string) { forall i :: 0 <= i < |s| ==> IsDigit(s[i]) }

  function DigitChar(d: nat): (c: char)
    requires d < 10
    ensures IsDigit(c) && DigitValue(c) == d
  {
    "0123456789"[d]
  }

  function DigitValue(c: char): nat
    requires IsDigit(c)
  {
    (c as int - '0' as int) as nat
  }

  function Pow10(n: nat): (p: nat)
    ensures p >= 1
  {
    if n == 0 then 1 else 10 * Pow10(n - 1)
  }

  /** Decimal rendering of a natural number, most significant digit first. */
  function NatToString(n: nat): (s: string)
    ensures |s| >= 1 && AllDigits(s)
    decreases n
  {
    if n < 10 then [DigitChar(n)] else NatToString(n / 10) + [DigitChar(n % 10)]
  }

  /** Value of a string of decimal digits (the empty string reads as 0). */
  function ParseDigits(s: string): nat
    requires AllDigits(s)
    decreases |s|
  {
    if s == [] then 0 else 10 * ParseDigits(s[..|s| - 1]) + DigitValue(s[|s| - 1])
  }

  lemma {:induction false} ParseNatToString(n: nat)
    ensures ParseDigits(NatToString(n)) == n
    decreases n
  {
    var s := NatToString(n);
    if n >= 10 {
      ParseNatToString(n / 10);
      assert s[..|s| - 1] == NatToString(n / 10);
    }
  }

  /** The decimal rendering of n has at most w digits exactly when n < 10^w. */
  lemma {:induction false} NatToStringWidth(n: nat, w: nat)
    requires w >= 1
    ensures |NatToString(n)| <= w <==> n < Pow10(w)
    decreases n
  {
    if n >= 10 {
      if w > 1 {
        NatToStringWidth(n / 10, w - 1);
      } else {
        assert |NatToString(n)| >= 2;
      }
    } else {
      Pow10AtLeastTen(w);
    }
  }

  lemma {:induction false} Pow10AtLeastTen(w: nat)
    requires w > 0
    ensures Pow10(w) >= 10
  {
    if w > 1 {
      Pow10AtLeastTen(w - 1);
    }
  }

  /** Repeat `c` n times. */
  function Repeat(c: char, n: nat): (s: string)
    ensures |s| == n && forall i :: 0 <= i < n ==> s[i] == c
  {
    if n == 0 then [] else Repeat(c, n - 1) + [c]
  }

  /** Left padding to a minimum width, as Python's format alignment does. */
  function PadLeft(s: string, width: nat, c: char): (r: string)
    ensures |r| == if |s| >= width then |s| else width
    ensures |s| >= width ==> r == s
    ensures |s| < width ==> r[width - |s|..] == s && forall i :: 0 <= i < width - |s| ==> r[i] == c
  {
    if |s| >= width then s else Repeat(c, width - |s|) + s
  }

  /** Leading zeros do not change the value of a digit string. */
  lemma {:induction false} ParseDigitsZeros(k: nat, s: string)
    requires AllDigits(s)
    ensures AllDigits(Repeat('0', k) + s)
    ensures ParseDigits(Repeat('0', k) + s) == ParseDigits(s)
    decreases |s|
  {
    var z := Repeat('0', k);
    if s == [] {
      assert z + s == z;
      ParseZeros(k);
    } else {
      ParseDigitsZeros(k, s[..|s| - 1]);
      assert (z + s)[..|z + s| - 1] == z + s[..|s| - 1];
    }
  }

  lemma {:induction false} ParseZeros(k: nat)
    ensures AllDigits(Repeat('0', k)) && ParseDigits(Repeat('0', k)) == 0
  {
    if k > 0 {
      ParseZeros(k - 1);
      assert Repeat('0', k)[..k - 1] == Repeat('0', k - 1);
    }
  }

  /** Python's `f"{n:0Wd}"` for a non-negative n reads back as n. */
  lemma ParsePadded(n: nat, w: nat)
    ensures AllDigits(PadLeft(NatToString(n), w, '0'))
    ensures ParseDigits(PadLeft(NatToString(n), w, '0')) == n
  {
    var s := NatToString(n);
    ParseNatToString(n);
    if |s| < w {
      ParseDigitsZeros(w - |s|, s);
    }
  }

  /** ASCII lower-casing, one character. */
  function LowerChar(c: char): char {
    if 'A' <= c <= 'Z' then (c as int + 32) as char else c
  }

  /** ASCII lower-casing of a string, as `str.lower()` does on ASCII text. */
  function Lower(s: string): (r: string)
    ensures |r| == |s| && forall i :: 0 <= i < |s| ==> r[i] == LowerChar(s[i])
  {
    seq(|s|, i requires 0 <= i < |s| => LowerChar(s[i]))
  }

  /** `needle` occurs in `s` starting at offset i. */
  predicate OccursAt(s: string, needle: string, i: nat) {
    i + |needle| <= |s| && s[i..i + |needle|] == needle
  }

  /** Python's `needle in s` for strings. */
  predicate Contains(s: string, needle: string) {
    exists i :: 0 <= i <= |s| - |needle| && OccursAt(s, needle, i)
  }

  lemma EmptyContained(s: string)
    ensures Contains(s, "")
  {
    assert OccursAt(s, "", 0);
  }

  predicate StartsWith(s: string, prefix: string) {
    |prefix| <= |s| && s[..|prefix|] == prefix
  }

  predicate EndsWith(s: string, suffix: string) {
    |suffix| <= |s| && s[|s| - |suffix|..] == suffix
  }

  /** Index of the first occurrence of c in s, or |s| when there is none. */
  function IndexOf(s: string, c: char): (k: nat)
    ensures k <= |s|
    ensures k < |s| ==> s[k] == c
    ensures forall i :: 0 <= i < k ==> s[i] != c
  {
    if s == [] then 0 else if s[0] == c then 0 else 1 + IndexOf(s[1..], c)
  }

  /** Index of the last occurrence of c in s, or |s| when there is none. */
  function LastIndexOf(s: string, c: char): (k: nat)
    ensures k <= |s|
    ensures k < |s| ==> s[k] == c && forall i :: k < i < |s| ==> s[i] != c
    ensures k == |s| ==> forall i :: 0 <= i < |s| ==> s[i] != c
  {
    if s == [] then 0
    else if s[|s| - 1] == c then |s| - 1
    else
      var k := LastIndexOf(s[..|s| - 1], c);
      if k == |s| - 1 then |s| else k
  }

  lemma IndexOfSplit(a: string, c: char, b: string)
    requires c !in a
    ensures IndexOf(a + [c] + b, c) == |a|
  {
    assert (a + [c] + b)[|a|] == c;
  }

  lemma LastIndexOfSplit(a: string, c: char, b: string)
    requires c !in b
    ensures LastIndexOf(a + [c] + b, c) == |a|
  {
    assert (a + [c] + b)[|a|] == c;
  }

  /** Python's `sep.join(parts)`. */
  function Join(parts: seq<string>, sep: string): string {
    if parts == [] then ""
    else if |parts| == 1 then parts[0]
    else parts[0] + sep + Join(parts[1..], sep)
  }
}

=== FILE: wrappers.dfy ===
/** Optional values and results shared by every module of the model. */
module Wrappers {

  /** Python's `None` versus a present value. */
  datatype Option<+T> = None | Some(value: T) {
    function GetOr(default: T): T {
      match this
      case Some(v) => v
      case None => default
    }
  }

  /** A value or the error that the source raises instead of it. */
  datatype Result<+T, +E> = Success(value: T) | Failure(error: E)
}
